=== FILE: README.md ===
# Inventario — the money ledger of a shoe inventory, in Dafny

Inventario is a Next.js and Prisma application that tracks shoe pairs.
Each `par` records several things:

- which intake batch (`ingreso`) it came in;
- its size (`talle`);
- the deposit (`deposito`) that holds it;
- its sale: `pagado`, `comprador`, `montoTotal` and `montoPagado`;
- a per-pair money ledger: `montoAcumulado` (collected) and `montoRetirado` (already withdrawn).

The available balance of a pair is `montoAcumulado - montoRetirado`.

This project models the handlers and page logic that compute with that ledger:

- **Withdrawals (`retiros`).** A chosen set of pairs is settled into one withdrawal: its total, its detail lines, the update that marks each pair as withdrawn, and one link per settled pair.
- **Refunds (`devoluciones`).** A pair is reset to unsold. When money from it had already been withdrawn, a negative offset pair is created first.
- **The available-funds listing (`dinero`).** This is the list of sold pairs with a nonzero balance, with a display status and the grand total.
- **Intake (`ingresos`).** Size/quantity entries are expanded into new pairs, and the default deposit is chosen.
- **The deposit view (`depositos/vista`).** Pairs are grouped brand → model → sorted distinct sizes.
- **Brand and model maintenance (`marcas`, `modelos`).** This covers create, rename and the delete guards that keep every reference valid.
- **The debtors page.** It computes what each debtor owes and the payment update it sends.
- **The funds page.** It handles the selection of pairs to withdraw, the amount shown for the selection, and when the withdrawal request is sent.

The database is a record of autoincrement tables, `Tables.Table<T>`: a map from id to row, plus the next id.

- `Inventario.Valid` says that every table's ids lie below its counter and that every foreign key names an existing row.
- Each handler is a pure function from the store, and the request, to the new store and the answer.
- Failures the handlers report, or that Prisma raises, are values of `Inventario.ApiError`.
- Money is an integer number of cents.
- A NULL amount is `None` and reads as 0 (`Inventario.Monto`, the `Number(x || 0)` idiom).

`findMany` without `orderBy` is taken to return rows in primary-key order.

- The listing helpers (`Listing.Between`, `Tables.Table.Select`) produce strictly increasing id lists.
- `Ids.AscendingUnique` shows that such a list is fixed by its set of ids.
- Totals are sums, so they do not depend on this choice. Several other results do:
  - the order of a withdrawal's detail lines, and which link id each settled pair gets (`Retiros.Enlazar`);
  - the order of the funds listing (`Dinero.ListarDinero`);
  - the order of the deposit view's entries (`Vista.ListarVista`) and of its brand and model groups;
  - through `findFirst`, which deposit an intake stores on every new pair (`Ingresos.ElegirDeposito` takes the lowest id). This one is persisted, not only an order.

## Model

| member | source | states |
|---|---|---|
| Retiros.Buscar | app/api/retiros/route.ts:10-11 | the pairs fetched for a request are exactly the existing pairs it names, each once and in increasing id order; unknown ids are dropped and duplicated ids count once |
| Saldos.Liquidables | app/api/retiros/route.ts:30-33 | the fetched pairs with a nonzero balance are exactly those kept, in the same order, and dropping the zero balances leaves the sum unchanged |
| Retiros.Liquidadas | app/api/retiros/route.ts:27-33 | a pair is settled exactly when it exists, is named and has a nonzero balance; the settled pairs carry the whole sum of the fetched balances |
| Retiros.Linea | app/api/retiros/route.ts:34-37 | a detail line shows the `-$` sign exactly when the balance is negative, its sign and absolute amount give back the balance, and it names the pair's brand, model and size |
| Retiros.SufijoComprador | app/api/retiros/route.ts:34 | the buyer part of a detail line is empty exactly for a NULL or empty buyer; otherwise it is ` - ` followed by the buyer, who can be read back from it |
| Retiros.LineaComprador | app/api/retiros/route.ts:34-37 | the buyer part of a pair's detail line is empty for a NULL or empty buyer and ` - ` followed by the buyer otherwise |
| Retiros.Totalizar | app/api/retiros/route.ts:23-39 | the first loop's total is the sum of the balances of the fetched pairs, with one detail line per pair whose balance is nonzero |
| Retiros.TotalizarLineas | app/api/retiros/route.ts:32-38 | the i-th detail line is the line of the i-th settled pair |
| Retiros.Saldado | app/api/retiros/route.ts:57-60 | a settled pair has balance zero, keeps its collected amount, and changes in no field other than `montoRetirado` |
| Retiros.Saldar | app/api/retiros/route.ts:50-60 | exactly the settled pairs are updated; every other pair is untouched |
| Retiros.Enlaces | app/api/retiros/route.ts:63-69 | one link per settled pair, in order, naming the withdrawal and the pair with the pair's balance before settlement; the link amounts add up to the settled sum |
| Retiros.Enlazar | app/api/retiros/route.ts:62-70 | the link table gains exactly one row per settled pair under consecutive fresh ids, and the old links are kept |
| Retiros.Asentar | app/api/retiros/route.ts:41-71 | the writes of the handler: the withdrawal is stored under the next id, the settled pairs are marked withdrawn and linked, the catalogue is unchanged and every reference stays valid |
| Retiros.LiquidacionValida | app/api/retiros/route.ts:41-71 | after the writes every pair still names an existing batch and deposit, and every link names an existing pair and withdrawal |
| Retiros.CrearRetiro | app/api/retiros/route.ts:6-74 | the withdrawal's total is the sum of the balances of the fetched pairs, it is stamped with the current time, and the store afterwards is valid |
| RetiroPropiedades.CrearRetiroDetalle | app/api/retiros/route.ts:32-38 | the withdrawal has one detail line per settled pair, in settlement order |
| RetiroPropiedades.CrearRetiroMontos | app/api/retiros/route.ts:63-69 | the amounts of the links created add up to the withdrawal's total |
| RetiroPropiedades.CrearRetiroSalda | app/api/retiros/route.ts:50-60 | no pair is added or removed; every settled pair is marked withdrawn; every pair that is not settled (unnamed, or with zero balance) is left as it was |
| RetiroPropiedades.CrearRetiroEnlaza | app/api/retiros/route.ts:62-70 | the link table grows by exactly the number of settled pairs, and existing links are kept |
| RetiroPropiedades.CrearRetiroEnlace | app/api/retiros/route.ts:63-69 | the i-th new link names the new withdrawal and the i-th settled pair, with that pair's balance before settlement |
| RetiroPropiedades.CrearRetiroVacia | app/api/retiros/route.ts:55-60 | after a withdrawal every named pair has balance zero |
| RetiroPropiedades.LiquidarDeNuevo | app/api/retiros/route.ts:27-71 | repeating a withdrawal for the same ids totals zero, has no detail lines, and changes no pair and no link |
| Devoluciones.Restablecido | app/api/devoluciones/route.ts:54-67 | the refunded pair is back on sale, unpaid, with no buyer, customer, price or sale date, both amounts zero, in the same batch, size and deposit |
| Devoluciones.Compensacion | app/api/devoluciones/route.ts:34-48 | an offset pair with price and collected amount `-monto`, nothing withdrawn, sold and partially paid, same batch, size, deposit and customer, buyer `DEVOLUCIÓN - ` followed by the original buyer as a template literal prints it (`null` when there is none), dated now |
| Devoluciones.TextoComprador | app/api/devoluciones/route.ts:41 | the buyer as a template literal prints it: the name itself, or `null` for a NULL buyer |
| Devoluciones.Contrapartida | app/api/devoluciones/route.ts:42-44 | the offset the handler writes has balance minus the collected amount |
| Devoluciones.ContrapartidaCorregida | app/api/devoluciones/route.ts:42-44 | the corrected offset has balance minus the withdrawn amount, and it is the handler's offset whenever everything collected had been withdrawn |
| Devoluciones.Reponer | app/api/devoluciones/route.ts:32-67 | the refund writes: the offset pair, if any, under the next id; the original reset; every other pair untouched |
| Devoluciones.ReponerAnteriores | app/api/devoluciones/route.ts:54-67 | over the pairs that existed before, the writes remove exactly the refunded pair's balance |
| Devoluciones.ReponerNuevo | app/api/devoluciones/route.ts:34-49 | the offset pair adds its own balance to the ledger total |
| Devoluciones.ReponerSaldo | app/api/devoluciones/route.ts:32-67 | ledger total after the writes = before − refunded pair's balance + offset's balance |
| Devoluciones.ReponerValida | app/api/devoluciones/route.ts:34-48 | the offset pair references the original's batch and deposit, so no reference dangles |
| Devoluciones.Refundir | app/api/devoluciones/route.ts:32-67 | the pair table after a refund: the offset is added under the next id exactly when `montoRetirado > 0`, the original is reset, and every other pair is unchanged |
| Devoluciones.Devolver | app/api/devoluciones/route.ts:6-74 | an unknown pair gives 404 and changes nothing; otherwise the refund is applied, with the offset exactly when money had been withdrawn, and the answer reports the collected amount and whether any had been withdrawn |
| Devoluciones.DevolverCorregido | app/api/devoluciones/route.ts:32-50 | the same handler with the offset carrying the withdrawn amount |
| DevolucionPropiedades.DevolverPares | app/api/devoluciones/route.ts:32-67 | a new pair is created exactly when `montoRetirado > 0`, under the next id and equal to the offset; otherwise the ids are unchanged; the original is reset and every other pair is unchanged |
| DevolucionPropiedades.DevolverMarco | app/api/devoluciones/route.ts:6-74 | a refund changes only the pair table |
| DevolucionPropiedades.DevolverSaldo | app/api/devoluciones/route.ts:27-67 | as written, the ledger loses the pair's balance plus, when money had been withdrawn, the whole collected amount again |
| DevolucionPropiedades.DevolucionDobleCuenta | app/api/devoluciones/route.ts:42-44 | with 100 collected and 40 withdrawn, the handler answers 100 refunded but the ledger drops by 160 |
| DevolucionPropiedades.Ejemplo | app/api/devoluciones/route.ts:27-32 | a store that satisfies the invariant and holds a pair with 100 collected and 40 withdrawn |
| DevolucionPropiedades.DevolverCorregidoSaldo | app/api/devoluciones/route.ts:27-50 | with the corrected offset the ledger drops by exactly the amount refunded |
| DevolucionPropiedades.DevolverCorregidoNegativo | app/api/devoluciones/route.ts:27-67 | with nothing or a negative amount withdrawn no offset is created: the answer reports the collected amount and nothing withdrawn, and the ledger loses just the pair's balance, which is nothing for a settled offset pair |
| DevolucionPropiedades.DevolverCoinciden | app/api/devoluciones/route.ts:32-50 | the handler and the corrected one agree whenever nothing, or everything collected, had been withdrawn |
| Dinero.EstadoPago | app/api/dinero/route.ts:31-34 | the status shown is 'Completo' exactly when stored as such or a positive price has been collected in full; otherwise it is the stored status |
| Dinero.Item | app/api/dinero/route.ts:27-47 | a listed item reports the collected amount as paid, the withdrawn amount, and their difference as the balance |
| Dinero.Cobros | app/api/dinero/route.ts:7-13 | the query returns exactly the pairs paid in full or in part |
| Dinero.Mapear | app/api/dinero/route.ts:27-47 | one item per queried pair, in query order, each the item of its pair |
| Dinero.Filtrar | app/api/dinero/route.ts:48 | every kept item comes from the listing and has a nonzero balance, and dropping the zero balances keeps the sum |
| Dinero.FiltrarExacto | app/api/dinero/route.ts:48 | the filter keeps exactly the items with a nonzero balance, and in order: ids that increased before still increase |
| Dinero.FiltrarIds | app/api/dinero/route.ts:27-50 | the items kept are exactly the queried pairs with a nonzero balance, in query order, and the items add up to the pairs' balance |
| Dinero.Visibles | app/api/dinero/route.ts:27-48 | the items kept are exactly those of the queried pairs with a nonzero balance, in query order, each the item of its pair, and they carry the whole balance of the query |
| Dinero.ListarDinero | app/api/dinero/route.ts:6-56 | a pair is listed exactly when it is sold and its balance is nonzero, once and in id order, and the total is the sum of the listed balances |
| Ingresos.Repetir | app/api/ingresos/route.ts:24 | `Array(n).fill` gives n copies of the size |
| Ingresos.Talles | app/api/ingresos/route.ts:23-28 | the sizes of the pairs to create, entry by entry; `Ingresos.TallesCantidad`, `Ingresos.TallesConcat` and `Ingresos.TallesOrigen` state their number, order and origin |
| Ingresos.TallesCantidad | app/api/ingresos/route.ts:23-28 | as many pairs are created as the quantities add up to |
| Ingresos.TallesConcat | app/api/ingresos/route.ts:23-28 | the expansion keeps entry order: expanding two lists of entries is expanding each in turn |
| Ingresos.TallesOrigen | app/api/ingresos/route.ts:23-28 | every created size comes from an entry with that size and a positive quantity |
| Ingresos.Nuevo | app/api/ingresos/route.ts:24-27 | a created pair has the entry's size and the chosen deposit and carries no sale |
| Ingresos.Nuevos | app/api/ingresos/route.ts:22-29 | one new pair per expanded size, in order |
| Ingresos.ElegirDeposito | app/api/ingresos/route.ts:10-17 | with no deposit, 'Principal' is created and used; otherwise the deposit table is unchanged and the first (lowest id) deposit is used |
| Ingresos.CrearIngreso | app/api/ingresos/route.ts:6-38 | a negative quantity or an unknown model fails with nothing written but the default deposit; otherwise the batch gets the next id and its pairs consecutive ids |
| Ingresos.IngresoValido | app/api/ingresos/route.ts:19-35 | after an intake every pair names an existing batch and deposit |
| Agrupacion.Posicion | app/api/depositos/vista/route.ts:31-41 | the lookup of an insertion-ordered map: the first position of the key, or none when absent |
| Agrupacion.PosicionAgregar | app/api/depositos/vista/route.ts:31-47 | adding a key at the end moves no earlier key |
| Agrupacion.AgregarTalle | app/api/depositos/vista/route.ts:41-49 | a model group is opened at the end the first time its model is seen |
| Agrupacion.AgregarTalleEn | app/api/depositos/vista/route.ts:49 | only the unit's own model gains its size |
| Agrupacion.AgregarUnidad | app/api/depositos/vista/route.ts:27-50 | a brand group is opened at the end the first time its brand is seen |
| Agrupacion.AgregarUnidadEn | app/api/depositos/vista/route.ts:39-49 | only the unit's own brand changes |
| Agrupacion.Agrupar | app/api/depositos/vista/route.ts:27-50 | the grouping loop over a deposit's units; `Agrupacion.AgruparMarcas`, `Agrupacion.AgruparModelos` and `Agrupacion.AgruparTalles` state its brand groups, model groups and sizes |
| Agrupacion.Primeros | app/api/depositos/vista/route.ts:53-56 | the keys without repetition, exactly those occurring |
| Agrupacion.PrimerosOrden | app/api/depositos/vista/route.ts:53-56 | the keys appear in order of first occurrence |
| Agrupacion.ModelosDeMarcaOrigen | app/api/depositos/vista/route.ts:27-47 | a model is listed for a brand exactly when a unit of that brand is of that model |
| Agrupacion.TallesDeModeloOrigen | app/api/depositos/vista/route.ts:27-49 | a size is listed for a model exactly when a unit of that brand and model has it |
| Agrupacion.AgruparMarcas | app/api/depositos/vista/route.ts:27-53 | the brand groups are the units' brands in order of first appearance |
| Agrupacion.AgruparModelos | app/api/depositos/vista/route.ts:39-56 | within a brand, the model groups are its units' models in order of first appearance |
| Agrupacion.AgruparTalles | app/api/depositos/vista/route.ts:49 | each model group holds the sizes of its units, in unit order |
| Agrupacion.Insertar | app/api/depositos/vista/route.ts:59 | inserting into an increasing list of sizes keeps it increasing and adds only that size |
| Agrupacion.Ordenados | app/api/depositos/vista/route.ts:59 | the sizes deduplicated and sorted: strictly increasing, with exactly the sizes given |
| Agrupacion.OrdenadosMismos | app/api/depositos/vista/route.ts:59 | the result depends only on which sizes occur |
| Agrupacion.FinalizarModelos | app/api/depositos/vista/route.ts:56-60 | converting a model map keeps ids and names and sorts each size list |
| Agrupacion.Finalizar | app/api/depositos/vista/route.ts:53-61 | converting the brand map keeps ids and names and converts each brand's models |
| Agrupacion.FinalizarEn | app/api/depositos/vista/route.ts:53-61 | the conversion moves no group and only sorts sizes |
| Agrupacion.Marcas | app/api/depositos/vista/route.ts:24-61 | the brand groups of one deposit; `Agrupacion.AgrupacionCorrecta` and `Agrupacion.UnidadPresente` state what they hold |
| Agrupacion.AgrupacionCorrecta | app/api/depositos/vista/route.ts:24-61 | each brand once in order of first appearance, each model once per brand in order of first appearance, and under each model exactly its units' sizes, strictly increasing |
| Agrupacion.UnidadPresente | app/api/depositos/vista/route.ts:27-50 | every unit's size is shown under its own model under its own brand |
| Vista.UnidadDe | app/api/depositos/vista/route.ts:27-29 | a pair is grouped under the model of its batch and that model's brand, with its size |
| Vista.ParesDe | app/api/depositos/vista/route.ts:5-8 | a deposit's pairs are exactly the pairs stored in it, in id order |
| Vista.Unidades | app/api/depositos/vista/route.ts:27 | one unit per pair of the deposit, in order |
| Vista.VistaDe | app/api/depositos/vista/route.ts:63-68 | a deposit's entry has its id and name, its brand groups, and `totalPares` equal to the number of pairs stored in it |
| Vista.ListarVista | app/api/depositos/vista/route.ts:4-72 | one entry per deposit, each deposit exactly once, in id order |
| Vista.ParVisible | app/api/depositos/vista/route.ts:27-50 | every pair's size appears in its deposit's entry under its own model and brand |
| Deudores.CalcularFaltante | app/deudores/page.tsx:37-39 | what is paid plus what is missing is the price, and nothing is missing exactly when the price is covered |
| Deudores.MarcarComoPagado | app/deudores/page.tsx:51-55 | the update for a pair carries the new amount and is 'Completo' exactly when it covers the price (a null price counts as 0), 'Parcial' otherwise |
| Deudores.ActualizarPago | app/deudores/page.tsx:191-197 | an update is sent exactly when the typed amount parses and is at least what was already paid, so paid amounts never go down |
| Deudores.MarcarPagado | app/deudores/page.tsx:202-206 | "Marcar Pagado" sends the full price and always gives 'Completo' with nothing left owed |
| Deudores.TotalAdeudado | app/deudores/page.tsx:139-141 | the `reduce` of the missing amounts; `Deudores.TotalAdeudadoDiferencia` and `Deudores.TotalAdeudadoCero` state its value |
| Deudores.TotalAdeudadoDiferencia | app/deudores/page.tsx:139-141 | the total owed is the sum of the prices minus the sum of the payments |
| Deudores.TotalAdeudadoCero | app/deudores/page.tsx:139-141 | when nobody has overpaid, the total owed is not negative, and it is zero exactly when everybody has paid in full |
| Seleccion.Quitar | app/dinero/page.tsx:65 | the filter removes every occurrence of the id and keeps the rest, without creating repetitions |
| Seleccion.QuitarConcat | app/dinero/page.tsx:65 | the filter keeps the order of the remaining ids: filtering a concatenation filters each part in turn |
| Seleccion.QuitarFinal | app/dinero/page.tsx:62-68 | removing an id that was appended last undoes the append |
| Seleccion.ToggleSeleccion | app/dinero/page.tsx:62-68 | the clicked id flips in or out of the selection, every other id keeps its state, and no id is picked twice |
| Seleccion.ToggleDosVeces | app/dinero/page.tsx:62-68 | toggling twice picks the same ids, and restores the very same list when the id was not picked |
| Seleccion.SeleccionarTodos | app/dinero/page.tsx:70-72 | the selection becomes exactly the listed ids in listed order; the listing is kept |
| Seleccion.LimpiarSeleccion | app/dinero/page.tsx:74-76 | the selection becomes empty; the listing is kept |
| Seleccion.CasillaTodos | app/dinero/page.tsx:184-185 | the header box is ticked exactly when the selection and the listing have the same, positive length; clicking it clears a selection of that length and selects all otherwise |
| Seleccion.CasillaTodosExacta | app/dinero/page.tsx:184-185 | when the picked ids are distinct and all listed, equal lengths hold exactly when every listed pair is picked |
| Seleccion.CasillaTodosSoloLongitud | app/dinero/page.tsx:184 | a stale selection of the same length ticks the box although the listed pair is not picked |
| Seleccion.MontoSeleccionado | app/dinero/page.tsx:94-96 | the balances of the listed pairs whose id is picked, added up; the `Monto…` lemmas below and `Escenarios.MontoElegidos` state its value |
| Seleccion.MontoVacio | app/dinero/page.tsx:94-96 | no listed pair picked gives a selected amount of 0 |
| Seleccion.MontoCompleto | app/dinero/page.tsx:94-96 | every listed pair picked gives the sum of the listing |
| Seleccion.MontoAgregar | app/dinero/page.tsx:94-96 | picking one more id adds the balance of the listed pairs with that id |
| Seleccion.MontoUno | app/dinero/page.tsx:94-96 | with distinct listed ids, one picked pair contributes exactly its balance |
| Seleccion.ToggleMonto | app/dinero/page.tsx:62-96 | clicking a listed pair moves the selected amount by exactly its balance, up when picked and down when dropped |
| Seleccion.BotonDeshabilitado | app/dinero/page.tsx:169 | the withdraw button is disabled while nothing is picked or the total is not positive; `Seleccion.PulsarRetirar` states its effect |
| Seleccion.RealizarRetiro | app/dinero/page.tsx:78-92 | a request is sent exactly when something is picked and the user confirms; it carries the picked ids and clears the selection; otherwise nothing changes |
| Seleccion.PulsarRetirar | app/dinero/page.tsx:167-170 | a request goes out only with a non-empty selection, a positive total and confirmation |
| Marcas.CrearMarca | app/api/marcas/route.ts:13-21 | exactly one brand is added, with the given name, under a fresh id; nothing else changes |
| Marcas.EliminarMarca | app/api/marcas/route.ts:23-45 | without an id, or while a model belongs to the brand, or for an unknown brand, the store is unchanged and an error is answered; otherwise exactly that brand is removed, and no model is left without its brand |
| Marcas.CrearEliminarMarca | app/api/marcas/route.ts:13-45 | deleting a brand right after creating it succeeds and restores the brands |
| Modelos.CrearModelo | app/api/modelos/route.ts:13-22 | a model with the given name and brand is added under a fresh id; an unknown brand fails with nothing written |
| Modelos.ActualizarModelo | app/api/modelos/route.ts:24-40 | without an id, or for an unknown model, nothing changes; otherwise only that model's name changes |
| Modelos.EliminarModelo | app/api/modelos/route.ts:42-64 | without an id, or while an intake batch refers to the model, or for an unknown model, nothing changes; otherwise exactly that model is removed, and no batch is left without its model |
| Modelos.CrearEliminarModelo | app/api/modelos/route.ts:13-64 | deleting a model right after creating it succeeds and restores the models |
| Modelos.ActualizarDosVeces | app/api/modelos/route.ts:33-37 | renaming twice is renaming once with the second name |
| Escenarios.BuscarUno | app/api/retiros/route.ts:10-11 | a request naming one existing pair fetches just that pair |
| Escenarios.DevolverYRetirar | app/api/devoluciones/route.ts:32-50 | after refunding a pair some of whose money had been withdrawn, withdrawing its offset pair totals minus the whole collected amount |
| Escenarios.DevolverCorregidoYRetirar | app/api/devoluciones/route.ts:32-50 | with the corrected offset the same sequence totals minus exactly the withdrawn cash |
| Escenarios.Elegidos | app/dinero/page.tsx:94-95 | the picked listed ids are exactly the listed ids that are picked, still in increasing order |
| Escenarios.MontoElegidos | app/dinero/page.tsx:94-96 | the amount the page shows is the ledger balance of the picked listed pairs |
| Escenarios.ConfirmarCoincide | app/dinero/page.tsx:78-92 | the amount the page asks to confirm is the total the withdrawal handler then takes out, when the listing is current and only listed pairs are picked |
| Escenarios.RetirarTodo | app/dinero/page.tsx:70-92 | selecting all and withdrawing takes out exactly the total shown |
| Escenarios.RetiradosFueraDeLista | app/api/dinero/route.ts:48 | after a withdrawal none of the withdrawn pairs is listed again |

## Left out

- **Database and HTTP plumbing.** Prisma I/O, request parsing and response plumbing are not modelled. Each handler is one atomic function over the store, and its failures are `ApiError` values instead of status codes and thrown exceptions.
- **Concurrency.** The handlers are non-transactional read-modify-write sequences, and interleavings of concurrent requests are not modelled.
- **Clock.** `new Date()` and `now()` defaults are the parameter `ahora`.
- **Floating point and formatting.**
  - JavaScript `Number` arithmetic and `toFixed` formatting are replaced by integer cents.
  - A withdrawal's detail text is kept as a list of structured lines, `DetalleLinea`. The sign flag and absolute amount replace the formatted string, and the `", "` join is not modelled.
- **Payment update endpoint.** `PUT /api/pares/[id]` is not part of this model.
  - The debtors page is modelled up to the update body it sends.
  - How the endpoint turns that body into `montoAcumulado` is not modelled.
- **Debtors listing.** `GET /api/deudores` is not part of this model, so the debtors page's list is an input.
- **Plain list queries.** The GET handlers of brands, models and withdrawals are plain queries and are not modelled.
- **Customers.** `clienteId` is carried as an opaque value.
- **Row order.** Where a handler reads rows without `orderBy`, the database is taken to return them in increasing id order.
- **Schema defaults.** The Prisma schema is not part of this model. A pair created by an intake is taken to be for sale, 'No pagado', and to have every optional field NULL (`Inventario.SinVenta`).
- **Parsing.**
  - An id query parameter is `Option<int>`: `None` stands for a missing or empty parameter. A non-numeric id, which `parseInt` turns into `NaN` and Prisma rejects, is not modelled.
  - The typed payment on the debtors page is `None` when `parseFloat` gives `NaN`.
- **Page refresh.** The funds page's `confirm` dialog is a boolean parameter. The refresh after a withdrawal is not modelled as page state; `Escenarios.RetiradosFueraDeLista` states what the next listing shows.
- **UI and auth.** Pure UI pages, login and the client-side auth guard are not modelled.
- DevolucionPropiedades.DevolverCorregidoSaldo: requires `montoRetirado >= 0`.
  - A negative withdrawn amount arises when a pair with a negative collected amount is settled, because settlement copies the collected amount into `montoRetirado`. That pair is an offset pair, or a pair given a negative amount through the pair update endpoint, which is not modelled.
  - Refunding such a pair creates no offset, so the ledger loses just the pair's balance, not the collected amount. For a settled offset pair that balance is 0, so the ledger does not move while the answer reports a negative refund. `DevolucionPropiedades.DevolverCorregidoNegativo` states this case.
- **Grouping names.** The deposit view takes a brand's or model's name from the first unit that opens its group. The model only groups by id, as the handler does; all units of one id carry the same name.

## Findings

| source | as written | input that shows it | evidently intended | confidence | as-written member | corrected member |
|---|---|---|---|---|---|---|
| app/api/devoluciones/route.ts:42-44 | the offset pair of a refund carries minus the whole collected amount, `-montoAcumulado`, whenever `montoRetirado > 0` | a pair with 40 collected and withdrawn, then paid up to 100 (`montoAcumulado` 100, `montoRetirado` 40); refunding it hands back 100 but the ledger total drops by 160: 60 pending erased by the reset plus 100 by the offset | the offset nets out only the cash already withdrawn, `-montoRetirado`, so the ledger drops by exactly the amount refunded | medium, not executed | DevolucionPropiedades.DevolucionDobleCuenta | DevolucionPropiedades.DevolverCorregidoSaldo |

The handler as written is `Devoluciones.Devolver`, and `DevolucionPropiedades.DevolverSaldo` gives its effect on the ledger in general. The corrected handler is `Devoluciones.DevolverCorregido`. `DevolucionPropiedades.DevolverCoinciden` shows that the two agree in the usual case, where everything collected had been withdrawn. `Escenarios.DevolverYRetirar` and `Escenarios.DevolverCorregidoYRetirar` compare what a later withdrawal of the offset takes out.

=== FILE: agrupacion.dfy ===
/** The grouping behind the deposit view: the units of one deposit, in the
    order the database lists them, are gathered brand by brand and, within a
    brand, model by model, each model collecting the sizes of its units.
    Groups are kept in order of first appearance; at the end each model's
    sizes are deduplicated and sorted. */
module Agrupacion {
  import opened Ids

  /** One unit as the grouping sees it: its brand, its model and its size. */
  datatype Unidad = Unidad(marcaId: int, marca: string, modeloId: int, modelo: string, talle: int)

  datatype GrupoModelo = GrupoModelo(id: int, nombre: string, talles: seq<int>)

  datatype GrupoMarca = GrupoMarca(id: int, nombre: string, modelos: seq<GrupoModelo>)

  /** Where `x` first occurs in `xs`, or -1 when it does not occur: the
      lookup of an insertion-ordered `Map`. */
  function Posicion(xs: seq<int>, x: int): (i: int)
    ensures -1 <= i < |xs|
    ensures i < 0 <==> x !in xs
    ensures i >= 0 ==> xs[i] == x && x !in xs[..i]
  {
    if |xs| == 0 then -1
    else if xs[0] == x then 0
    else
      var j := Posicion(xs[1..], x);
      if j < 0 then
        assert xs == [xs[0]] + xs[1..];
        -1
      else
        assert xs[..j + 1] == [xs[0]] + xs[1..][..j];
        j + 1
  }

  /** The first occurrence is the only position that fits. */
  lemma PosicionEn(xs: seq<int>, x: int, i: int)
    requires 0 <= i < |xs| && xs[i] == x && x !in xs[..i]
    ensures Posicion(xs, x) == i
  {
  }

  /** Appending a key moves no earlier key. */
  lemma PosicionAgregar(xs: seq<int>, y: int, x: int)
    ensures Posicion(xs + [y], x) == if x in xs then Posicion(xs, x) else if x == y then |xs| else -1
  {
    var zs := xs + [y];
    if x in xs {
      var i := Posicion(xs, x);
      assert zs[..i] == xs[..i];
      PosicionEn(zs, x, i);
    } else if x == y {
      assert zs[..|xs|] == xs;
      PosicionEn(zs, x, |xs|);
    } else {
      assert x !in zs;
    }
  }

  function MarcaIds(gs: seq<GrupoMarca>): (ids: seq<int>)
    ensures |ids| == |gs|
    ensures forall i :: 0 <= i < |gs| ==> ids[i] == gs[i].id
  {
    seq(|gs|, i requires 0 <= i < |gs| => gs[i].id)
  }

  function ModeloIds(ms: seq<GrupoModelo>): (ids: seq<int>)
    ensures |ids| == |ms|
    ensures forall i :: 0 <= i < |ms| ==> ids[i] == ms[i].id
  {
    seq(|ms|, i requires 0 <= i < |ms| => ms[i].id)
  }

  /** The models grouped under brand `m`, none when it has no group. */
  function ModelosDe(gs: seq<GrupoMarca>, m: int): seq<GrupoModelo> {
    var i := Posicion(MarcaIds(gs), m);
    if i < 0 then [] else gs[i].modelos
  }

  /** The sizes collected for model `md`, none when it has no group. */
  function TallesEn(ms: seq<GrupoModelo>, md: int): seq<int> {
    var i := Posicion(ModeloIds(ms), md);
    if i < 0 then [] else ms[i].talles
  }

  /** One unit into the models of its brand: a new model group is opened at
      the end the first time its model is seen; the size is pushed onto the
      model's group. */
  function AgregarTalle(ms: seq<GrupoModelo>, u: Unidad): (r: seq<GrupoModelo>)
    ensures ModeloIds(r) == if u.modeloId in ModeloIds(ms) then ModeloIds(ms) else ModeloIds(ms) + [u.modeloId]
  {
    var i := Posicion(ModeloIds(ms), u.modeloId);
    if i < 0 then ms + [GrupoModelo(u.modeloId, u.modelo, [u.talle])]
    else ms[i := ms[i].(talles := ms[i].talles + [u.talle])]
  }

  /** Only the unit's own model gains its size. */
  lemma AgregarTalleEn(ms: seq<GrupoModelo>, u: Unidad, md: int)
    ensures TallesEn(AgregarTalle(ms, u), md) == TallesEn(ms, md) + (if md == u.modeloId then [u.talle] else [])
  {
    var ids := ModeloIds(ms);
    PosicionAgregar(ids, u.modeloId, md);
  }

  /** One unit into the grouping: a new brand group is opened at the end
      the first time its brand is seen, then the unit goes into that brand's
      models. */
  function AgregarUnidad(gs: seq<GrupoMarca>, u: Unidad): (r: seq<GrupoMarca>)
    ensures MarcaIds(r) == if u.marcaId in MarcaIds(gs) then MarcaIds(gs) else MarcaIds(gs) + [u.marcaId]
  {
    var i := Posicion(MarcaIds(gs), u.marcaId);
    if i < 0 then gs + [GrupoMarca(u.marcaId, u.marca, AgregarTalle([], u))]
    else gs[i := gs[i].(modelos := AgregarTalle(gs[i].modelos, u))]
  }

  /** Only the unit's own brand changes. */
  lemma AgregarUnidadEn(gs: seq<GrupoMarca>, u: Unidad, m: int)
    ensures ModelosDe(AgregarUnidad(gs, u), m)
            == if m == u.marcaId then AgregarTalle(ModelosDe(gs, m), u) else ModelosDe(gs, m)
  {
    var ids := MarcaIds(gs);
    PosicionAgregar(ids, u.marcaId, m);
  }

  /** The `forEach` over the units, in order. */
  function Agrupar(us: seq<Unidad>): seq<GrupoMarca> {
    if |us| == 0 then [] else AgregarUnidad(Agrupar(us[..|us| - 1]), us[|us| - 1])
  }

  /** The keys of `xs` without repetition, in order of first occurrence. */
  function Primeros(xs: seq<int>): (r: seq<int>)
    ensures Distinct(r)
    ensures forall x :: x in r <==> x in xs
  {
    if |xs| == 0 then []
    else
      var p := Primeros(xs[..|xs| - 1]);
      assert xs == xs[..|xs| - 1] + [xs[|xs| - 1]];
      if xs[|xs| - 1] in p then p else p + [xs[|xs| - 1]]
  }

  /** `Primeros` keeps the order in which keys first occur. */
  lemma {:induction false} PrimerosOrden(xs: seq<int>)
    ensures forall i, j :: 0 <= i < j < |Primeros(xs)| ==>
              Posicion(xs, Primeros(xs)[i]) < Posicion(xs, Primeros(xs)[j])
  {
    if |xs| > 0 {
      var init := xs[..|xs| - 1];
      var x := xs[|xs| - 1];
      var p := Primeros(init);
      var r := Primeros(xs);
      PrimerosOrden(init);
      assert xs == init + [x];
      forall y | y in init
        ensures Posicion(xs, y) == Posicion(init, y)
      {
        PosicionAgregar(init, x, y);
      }
      forall i, j | 0 <= i < j < |r|
        ensures Posicion(xs, r[i]) < Posicion(xs, r[j])
      {
        assert r[i] == p[i] && r[i] in init;
        if j < |p| {
          assert r[j] == p[j] && r[j] in init;
        } else {
          assert r[j] == x && x !in init;
          PosicionAgregar(init, x, x);
        }
      }
    }
  }

  /** The brands of the units, unit by unit. */
  function MarcasDe(us: seq<Unidad>): (ms: seq<int>)
    ensures |ms| == |us|
    ensures forall k :: 0 <= k < |us| ==> ms[k] == us[k].marcaId
  {
    seq(|us|, k requires 0 <= k < |us| => us[k].marcaId)
  }

  /** The models of the units of brand `m`, unit by unit. */
  function ModelosDeMarca(us: seq<Unidad>, m: int): seq<int> {
    if |us| == 0 then []
    else
      var u := us[|us| - 1];
      ModelosDeMarca(us[..|us| - 1], m) + (if u.marcaId == m then [u.modeloId] else [])
  }

  /** A model is listed for brand `m` exactly when some unit of that brand
      is of that model. */
  lemma {:induction false} ModelosDeMarcaOrigen(us: seq<Unidad>, m: int, md: int)
    ensures md in ModelosDeMarca(us, m) <==> exists k :: 0 <= k < |us| && us[k].marcaId == m && us[k].modeloId == md
  {
    if |us| > 0 {
      var init := us[..|us| - 1];
      ModelosDeMarcaOrigen(init, m, md);
      assert forall k :: 0 <= k < |init| ==> init[k] == us[k];
    }
  }

  /** The sizes of the units of brand `m` and model `md`, unit by unit. */
  function TallesDeModelo(us: seq<Unidad>, m: int, md: int): seq<int> {
    if |us| == 0 then []
    else
      var u := us[|us| - 1];
      TallesDeModelo(us[..|us| - 1], m, md) + (if u.marcaId == m && u.modeloId == md then [u.talle] else [])
  }

  /** A size is listed for model `md` of brand `m` exactly when some unit of
      that brand and model has that size. */
  lemma {:induction false} TallesDeModeloOrigen(us: seq<Unidad>, m: int, md: int, t: int)
    ensures t in TallesDeModelo(us, m, md) <==>
            exists k :: 0 <= k < |us| && us[k].marcaId == m && us[k].modeloId == md && us[k].talle == t
  {
    if |us| > 0 {
      var init := us[..|us| - 1];
      TallesDeModeloOrigen(init, m, md, t);
      assert forall k :: 0 <= k < |init| ==> init[k] == us[k];
    }
  }

  /** The brand groups are the units' brands in order of first appearance. */
  lemma {:induction false} AgruparMarcas(us: seq<Unidad>)
    ensures MarcaIds(Agrupar(us)) == Primeros(MarcasDe(us))
  {
    if |us| > 0 {
      var init := us[..|us| - 1];
      AgruparMarcas(init);
      assert MarcasDe(us)[..|us| - 1] == MarcasDe(init);
    }
  }

  /** Within brand `m`, the model groups are the models of that brand's units
      in order of first appearance. */
  lemma {:induction false} AgruparModelos(us: seq<Unidad>, m: int)
    ensures ModeloIds(ModelosDe(Agrupar(us), m)) == Primeros(ModelosDeMarca(us, m))
  {
    if |us| > 0 {
      var init := us[..|us| - 1];
      var u := us[|us| - 1];
      AgruparModelos(init, m);
      AgregarUnidadEn(Agrupar(init), u, m);
      var ms := ModelosDe(Agrupar(init), m);
      var prev := ModelosDeMarca(init, m);
      var xs := ModelosDeMarca(us, m);
      assert ModeloIds(ms) == Primeros(prev);
      if u.marcaId == m {
        assert xs == prev + [u.modeloId];
        assert xs[..|xs| - 1] == prev;
        assert Primeros(xs) == if u.modeloId in Primeros(prev) then Primeros(prev) else Primeros(prev) + [u.modeloId];
        assert ModelosDe(Agrupar(us), m) == AgregarTalle(ms, u);
      } else {
        assert xs == prev;
      }
    }
  }

  /** Each model group holds the sizes of its units, in unit order. */
  lemma {:induction false} AgruparTalles(us: seq<Unidad>, m: int, md: int)
    ensures TallesEn(ModelosDe(Agrupar(us), m), md) == TallesDeModelo(us, m, md)
  {
    if |us| > 0 {
      var init := us[..|us| - 1];
      var u := us[|us| - 1];
      AgruparTalles(init, m, md);
      AgregarUnidadEn(Agrupar(init), u, m);
      if u.marcaId == m {
        AgregarTalleEn(ModelosDe(Agrupar(init), m), u, md);
      }
    }
  }

  /** `x` put into its place in an increasing list, unless already there. */
  function Insertar(xs: seq<int>, x: int): (r: seq<int>)
    requires StrictlyAscending(xs)
    ensures StrictlyAscending(r)
    ensures forall y :: y in r <==> y in xs || y == x
  {
    if |xs| == 0 then [x]
    else if x < xs[0] then [x] + xs
    else if x == xs[0] then xs
    else
      var rest := Insertar(xs[1..], x);
      var r := [xs[0]] + rest;
      assert StrictlyAscending(r) by {
        assert forall y :: y in rest ==> xs[0] < y;
        forall i, j | 0 <= i < j < |r|
          ensures r[i] < r[j]
        {
          assert r[j] == rest[j - 1] && rest[j - 1] in rest;
        }
      }
      r
  }

  /** `[...new Set(ts)].sort((a, b) => a - b)`: the distinct sizes in
      increasing order. */
  function Ordenados(ts: seq<int>): (r: seq<int>)
    ensures StrictlyAscending(r)
    ensures forall x :: x in r <==> x in ts
  {
    if |ts| == 0 then []
    else
      var r := Insertar(Ordenados(ts[..|ts| - 1]), ts[|ts| - 1]);
      assert ts == ts[..|ts| - 1] + [ts[|ts| - 1]];
      r
  }

  /** Sorting the distinct sizes does not depend on how they were listed:
      lists with the same sizes give the same result. */
  lemma OrdenadosMismos(a: seq<int>, b: seq<int>)
    requires forall x :: x in a <==> x in b
    ensures Ordenados(a) == Ordenados(b)
  {
    AscendingUnique(Ordenados(a), Ordenados(b));
  }

  function FinalizarModelos(ms: seq<GrupoModelo>): (r: seq<GrupoModelo>)
    ensures |r| == |ms|
    ensures forall i :: 0 <= i < |ms| ==>
              r[i].id == ms[i].id && r[i].nombre == ms[i].nombre && r[i].talles == Ordenados(ms[i].talles)
  {
    seq(|ms|, i requires 0 <= i < |ms| => GrupoModelo(ms[i].id, ms[i].nombre, Ordenados(ms[i].talles)))
  }

  /** Turning the maps into arrays with sorted sizes. */
  function Finalizar(gs: seq<GrupoMarca>): (r: seq<GrupoMarca>)
    ensures |r| == |gs|
    ensures forall i :: 0 <= i < |gs| ==>
              r[i].id == gs[i].id && r[i].nombre == gs[i].nombre && r[i].modelos == FinalizarModelos(gs[i].modelos)
  {
    seq(|gs|, i requires 0 <= i < |gs| => GrupoMarca(gs[i].id, gs[i].nombre, FinalizarModelos(gs[i].modelos)))
  }

  /** The finishing step keeps every group where it is and only sorts sizes. */
  lemma FinalizarEn(gs: seq<GrupoMarca>, m: int, md: int)
    ensures MarcaIds(Finalizar(gs)) == MarcaIds(gs)
    ensures ModelosDe(Finalizar(gs), m) == FinalizarModelos(ModelosDe(gs, m))
    ensures ModeloIds(FinalizarModelos(ModelosDe(gs, m))) == ModeloIds(ModelosDe(gs, m))
    ensures TallesEn(FinalizarModelos(ModelosDe(gs, m)), md) == Ordenados(TallesEn(ModelosDe(gs, m), md))
  {
    assert MarcaIds(Finalizar(gs)) == MarcaIds(gs);
    var ms := ModelosDe(gs, m);
    assert ModeloIds(FinalizarModelos(ms)) == ModeloIds(ms);
  }

  /** The brand groups of one deposit. */
  function Marcas(us: seq<Unidad>): seq<GrupoMarca> {
    Finalizar(Agrupar(us))
  }

  /** What the deposit view shows: each brand once, in order of first
      appearance among the units; within brand `m`, each of its models once,
      in order of first appearance; under model `md`, exactly the sizes of its
      units, each once and in increasing order. */
  lemma AgrupacionCorrecta(us: seq<Unidad>, m: int, md: int)
    ensures MarcaIds(Marcas(us)) == Primeros(MarcasDe(us))
    ensures ModeloIds(ModelosDe(Marcas(us), m)) == Primeros(ModelosDeMarca(us, m))
    ensures StrictlyAscending(TallesEn(ModelosDe(Marcas(us), m), md))
    ensures forall t :: t in TallesEn(ModelosDe(Marcas(us), m), md) <==> t in TallesDeModelo(us, m, md)
  {
    FinalizarEn(Agrupar(us), m, md);
    AgruparMarcas(us);
    AgruparModelos(us, m);
    AgruparTalles(us, m, md);
  }

  /** Every unit's size is shown under its own brand and model. */
  lemma UnidadPresente(us: seq<Unidad>, k: int)
    requires 0 <= k < |us|
    ensures var u := us[k];
            && u.marcaId in MarcaIds(Marcas(us))
            && u.modeloId in ModeloIds(ModelosDe(Marcas(us), u.marcaId))
            && u.talle in TallesEn(ModelosDe(Marcas(us), u.marcaId), u.modeloId)
  {
    var u := us[k];
    AgrupacionCorrecta(us, u.marcaId, u.modeloId);
    assert MarcasDe(us)[k] == u.marcaId;
    ModelosDeMarcaOrigen(us, u.marcaId, u.modeloId);
    TallesDeModeloOrigen(us, u.marcaId, u.modeloId, u.talle);
  }
}

=== FILE: deudores.dfy ===
/** The debtors page: the amount still owed by each debtor, the total owed,
    and the payment update the page sends for a debtor. Amounts arrive as
    JSON numbers that may be null; the page reads a null amount as 0. */
module Deudores {
  import opened Wrappers
  import opened Inventario

  /** A listed debtor: a sold pair with its price and the amount paid. */
  datatype Deudor = Deudor(id: int, comprador: Option<string>, montoTotal: Option<int>, montoPagado: Option<int>)

  /** The body of the payment update sent for pair `parId`. */
  datatype Actualizacion = Actualizacion(parId: int, montoPagado: int, pagado: Pagado)

  /** What is still owed: the price minus what has been paid. */
  function CalcularFaltante(total: int, pagado: int): (f: int)
    ensures pagado + f == total
    ensures f <= 0 <==> pagado >= total
  {
    total - pagado
  }

  /** What a debtor still owes, null amounts read as 0. */
  function Faltante(d: Deudor): int {
    CalcularFaltante(Monto(d.montoTotal), Monto(d.montoPagado))
  }

  /** The update for a new paid amount: complete once the price (null read
      as 0) is covered, partial otherwise. */
  function MarcarComoPagado(d: Deudor, nuevoPago: int): (a: Actualizacion)
    ensures a.parId == d.id && a.montoPagado == nuevoPago
    ensures a.pagado == Completo <==> CalcularFaltante(Monto(d.montoTotal), nuevoPago) <= 0
    ensures a.pagado != Completo ==> a.pagado == Parcial
  {
    var total := Monto(d.montoTotal);
    Actualizacion(d.id, nuevoPago, if nuevoPago >= total then Completo else Parcial)
  }

  /** "Actualizar Pago": the typed amount (None when it does not parse) is
      sent only when it is at least the amount already paid. */
  function ActualizarPago(d: Deudor, nuevoPago: Option<int>): (a: Option<Actualizacion>)
    ensures a.Some? <==> nuevoPago.Some? && nuevoPago.value >= Monto(d.montoPagado)
    ensures a.Some? ==> a.value == MarcarComoPagado(d, nuevoPago.value)
    ensures a.Some? ==> a.value.montoPagado >= Monto(d.montoPagado)
  {
    if nuevoPago.Some? && nuevoPago.value >= Monto(d.montoPagado) then Some(MarcarComoPagado(d, nuevoPago.value))
    else None
  }

  /** "Marcar Pagado": the whole price is sent as paid, which always marks
      the sale complete and leaves nothing owed. */
  function MarcarPagado(d: Deudor): (a: Actualizacion)
    ensures a.pagado == Completo
    ensures a.montoPagado == Monto(d.montoTotal)
    ensures CalcularFaltante(Monto(d.montoTotal), a.montoPagado) == 0
  {
    MarcarComoPagado(d, Monto(d.montoTotal))
  }

  /** The total owed: the sum of what each listed debtor still owes. */
  function TotalAdeudado(ds: seq<Deudor>): int {
    if |ds| == 0 then 0 else TotalAdeudado(ds[..|ds| - 1]) + Faltante(ds[|ds| - 1])
  }

  function SumaTotales(ds: seq<Deudor>): int {
    if |ds| == 0 then 0 else Monto(ds[0].montoTotal) + SumaTotales(ds[1..])
  }

  function SumaPagos(ds: seq<Deudor>): int {
    if |ds| == 0 then 0 else Monto(ds[0].montoPagado) + SumaPagos(ds[1..])
  }

  lemma {:induction false} SumasConcat(a: seq<Deudor>, b: seq<Deudor>)
    ensures SumaTotales(a + b) == SumaTotales(a) + SumaTotales(b)
    ensures SumaPagos(a + b) == SumaPagos(a) + SumaPagos(b)
  {
    if |a| > 0 {
      assert (a + b)[1..] == a[1..] + b;
      SumasConcat(a[1..], b);
    } else {
      assert a + b == b;
    }
  }

  /** The total owed is the sum of the prices minus the sum of the payments. */
  lemma {:induction false} TotalAdeudadoDiferencia(ds: seq<Deudor>)
    ensures TotalAdeudado(ds) == SumaTotales(ds) - SumaPagos(ds)
  {
    if |ds| > 0 {
      var init := ds[..|ds| - 1];
      var last := ds[|ds| - 1];
      TotalAdeudadoDiferencia(init);
      SumasConcat(init, [last]);
      assert init + [last] == ds;
    }
  }

  /** When no debtor has paid more than the price, the total owed is not
      negative, and it is zero only when every debtor has paid in full. */
  lemma {:induction false} TotalAdeudadoCero(ds: seq<Deudor>)
    requires forall i :: 0 <= i < |ds| ==> Faltante(ds[i]) >= 0
    ensures TotalAdeudado(ds) >= 0
    ensures TotalAdeudado(ds) == 0 <==> forall i :: 0 <= i < |ds| ==> Faltante(ds[i]) == 0
  {
    if |ds| > 0 {
      var init := ds[..|ds| - 1];
      TotalAdeudadoCero(init);
      assert forall i :: 0 <= i < |init| ==> init[i] == ds[i];
    }
  }
}

=== FILE: devolucion_propiedades.dfy ===
/** What a refund does to the pair table and to the ledger balance, for the
    handler as written and for the corrected offset. */
module DevolucionPropiedades {
  import opened Wrappers
  import opened Tables
  import opened Inventario
  import opened Saldos
  import opened Devoluciones

  /** The pair table after refunding an existing pair: the offset pair is
      created, under the next id, exactly when money had been withdrawn;
      otherwise the table keeps its size. The original is reset and every
      other pair is left as it was. */
  lemma DevolverPares(s: Store, parId: int, ahora: int)
    requires Valid(s) && parId in s.pares.rows
    ensures var t := Devolver(s, parId, ahora).0.pares;
            var p := s.pares.rows[parId];
            var n := s.pares.next;
            && (Monto(p.montoRetirado) > 0 <==> t.next == n + 1)
            && (Monto(p.montoRetirado) > 0 ==> t.rows.Keys == s.pares.rows.Keys + {n}
                                               && t.rows[n] == Contrapartida(p, ahora))
            && (Monto(p.montoRetirado) <= 0 ==> t.next == n && t.rows.Keys == s.pares.rows.Keys)
            && t.rows[parId] == Restablecido(p)
            && (forall id :: id in s.pares.rows && id != parId ==> t.rows[id] == s.pares.rows[id])
  {
  }

  /** Only the pair table changes. */
  lemma DevolverMarco(s: Store, parId: int, ahora: int)
    requires Valid(s)
    ensures var s' := Devolver(s, parId, ahora).0;
            s' == s.(pares := s'.pares)
  {
  }

  /** The ledger balance after a refund as written: the pair's balance is
      gone, and when money had been withdrawn the offset takes away the whole
      collected amount once more. */
  lemma DevolverSaldo(s: Store, parId: int, ahora: int)
    requires Valid(s) && parId in s.pares.rows
    ensures var p := s.pares.rows[parId];
            SaldoTotal(Devolver(s, parId, ahora).0.pares)
            == SaldoTotal(s.pares) - Disponible(p)
               - (if Monto(p.montoRetirado) > 0 then Monto(p.montoAcumulado) else 0)
  {
    var p := s.pares.rows[parId];
    ReponerSaldo(s.pares, parId, if Monto(p.montoRetirado) > 0 then Some(Contrapartida(p, ahora)) else None);
  }

  /** A pair with 100 collected and 40 of it withdrawn: refunding it takes
      160 off the ledger although only 100 is handed back. */
  lemma DevolucionDobleCuenta(s: Store, parId: int, ahora: int)
    requires Valid(s) && parId in s.pares.rows
    requires s.pares.rows[parId].montoAcumulado == Some(100)
    requires s.pares.rows[parId].montoRetirado == Some(40)
    ensures Devolver(s, parId, ahora).1 == Ok(Devolucion(100, true))
    ensures SaldoTotal(Devolver(s, parId, ahora).0.pares) == SaldoTotal(s.pares) - 160
    ensures SaldoTotal(Devolver(s, parId, ahora).0.pares) != SaldoTotal(s.pares) - 100
  {
    DevolverSaldo(s, parId, ahora);
  }

  /** A store holding one such pair, so the case above can occur. */
  function Ejemplo(): (s: Store)
    ensures Valid(s) && 1 in s.pares.rows
    ensures s.pares.rows[1].montoAcumulado == Some(100)
    ensures s.pares.rows[1].montoRetirado == Some(40)
  {
    var par := Par(1, 40, 1, false, Parcial, Some("Ana"), Some(100), Some(100),
                   Some(100), Some(40), Some(0), None);
    Store(Table(map[1 := Deposito("Principal")], 2),
          Table(map[1 := Marca("Marca")], 2),
          Table(map[1 := Modelo("Modelo", 1)], 2),
          Table(map[1 := Ingreso(1, 0)], 2),
          Table(map[1 := par], 2),
          Table(map[], 1),
          Table(map[], 1))
  }

  /** The corrected refund takes exactly the handed-back amount off the
      ledger: the pending part with the reset, the withdrawn part with the
      offset. */
  lemma DevolverCorregidoSaldo(s: Store, parId: int, ahora: int)
    requires Valid(s) && parId in s.pares.rows
    requires Monto(s.pares.rows[parId].montoRetirado) >= 0
    ensures SaldoTotal(DevolverCorregido(s, parId, ahora).0.pares)
            == SaldoTotal(s.pares) - Monto(s.pares.rows[parId].montoAcumulado)
  {
    var p := s.pares.rows[parId];
    ReponerSaldo(s.pares, parId, if Monto(p.montoRetirado) > 0 then Some(ContrapartidaCorregida(p, ahora)) else None);
  }

  /** A pair with nothing or a negative amount withdrawn gets no offset: the
      ledger loses just its balance. A settled offset pair has both amounts
      equal and negative, so refunding it leaves the ledger as it was while
      the answer reports a negative amount handed back. */
  lemma DevolverCorregidoNegativo(s: Store, parId: int, ahora: int)
    requires Valid(s) && parId in s.pares.rows
    requires Monto(s.pares.rows[parId].montoRetirado) <= 0
    ensures var p := s.pares.rows[parId];
            DevolverCorregido(s, parId, ahora).1 == Ok(Devolucion(Monto(p.montoAcumulado), false))
    ensures SaldoTotal(DevolverCorregido(s, parId, ahora).0.pares)
            == SaldoTotal(s.pares) - Disponible(s.pares.rows[parId])
    ensures var p := s.pares.rows[parId];
            Monto(p.montoRetirado) == Monto(p.montoAcumulado) ==>
              SaldoTotal(DevolverCorregido(s, parId, ahora).0.pares) == SaldoTotal(s.pares)
  {
    ReponerSaldo(s.pares, parId, None);
  }

  /** The two differ only on a partly withdrawn pair: with nothing withdrawn
      or everything withdrawn they leave the same store and answer. */
  lemma DevolverCoinciden(s: Store, parId: int, ahora: int)
    requires Valid(s)
    requires parId in s.pares.rows ==>
               var p := s.pares.rows[parId];
               Monto(p.montoRetirado) <= 0 || Monto(p.montoRetirado) == Monto(p.montoAcumulado)
    ensures DevolverCorregido(s, parId, ahora) == Devolver(s, parId, ahora)
  {
  }
}

=== FILE: devoluciones.dfy ===
/** Refunding a sale: `POST /api/devoluciones`. The handler resets the pair
    to its unsold state; when money from it had already been withdrawn it
    first records a negative offset pair, so that a later withdrawal can
    net the refunded cash out of the ledger. */
module Devoluciones {
  import opened Wrappers
  import opened Ids
  import opened Listing
  import opened Tables
  import opened Inventario
  import opened Saldos

  /** The answer of a successful refund: the amount handed back and whether
      part of it had already been withdrawn. */
  datatype Devolucion = Devolucion(montoDevuelto: int, yaRetirado: bool)

  /** The marker that starts the buyer of every offset pair. */
  const PrefijoDevolucion: string := "DEVOLUCI\U{D3}N - "

  /** A buyer inside a template literal: a NULL buyer prints as `null`. */
  function TextoComprador(c: Option<string>): (r: string)
    ensures c.Some? ==> r == c.value
    ensures c.None? ==> r == "null"
  {
    if c.Some? then c.value else "null"
  }

  /** The original pair after the refund: back on sale, every sale field
      cleared and both amounts zero; where it is stays the same. */
  function Restablecido(p: Par): (q: Par)
    ensures SinVenta(q)
    ensures Monto(q.montoAcumulado) == 0 && Monto(q.montoRetirado) == 0
    ensures q.ingresoId == p.ingresoId && q.talle == p.talle && q.depositoId == p.depositoId
  {
    p.(disponible := true, pagado := NoPagado, comprador := None,
       montoTotal := None, montoPagado := None,
       montoAcumulado := Some(0), montoRetirado := Some(0),
       fechaVenta := None, clienteId := None)
  }

  /** The offset pair carrying `monto`: sold (not for sale), partially paid,
      at the original's intake batch, size, deposit and customer, with the
      buyer marked as a refund and a balance of `-monto`. */
  function Compensacion(p: Par, monto: int, ahora: int): (q: Par)
    ensures Disponible(q) == -monto
    ensures q.montoTotal == q.montoAcumulado == Some(-monto)
    ensures Monto(q.montoRetirado) == 0
    ensures !q.disponible && q.pagado == Parcial
    ensures q.ingresoId == p.ingresoId && q.talle == p.talle && q.depositoId == p.depositoId
    ensures q.clienteId == p.clienteId
    ensures q.comprador == Some(PrefijoDevolucion + TextoComprador(p.comprador))
    ensures p.comprador.Some? ==> q.comprador == Some(PrefijoDevolucion + p.comprador.value)
    ensures p.comprador.None? ==> q.comprador == Some(PrefijoDevolucion + "null")
    ensures q.fechaVenta == Some(ahora)
  {
    Par(p.ingresoId, p.talle, p.depositoId, false, Parcial,
        Some(PrefijoDevolucion + TextoComprador(p.comprador)),
        Some(-monto), Some(0), Some(-monto), Some(0), Some(ahora), p.clienteId)
  }

  /** The offset pair the handler writes: it carries the whole collected
      amount, whatever part of it was withdrawn. */
  function Contrapartida(p: Par, ahora: int): (q: Par)
    ensures Disponible(q) == -Monto(p.montoAcumulado)
  {
    Compensacion(p, Monto(p.montoAcumulado), ahora)
  }

  /** The offset pair that nets out exactly the withdrawn cash. */
  function ContrapartidaCorregida(p: Par, ahora: int): (q: Par)
    ensures Disponible(q) == -Monto(p.montoRetirado)
    ensures Monto(p.montoRetirado) == Monto(p.montoAcumulado) ==> q == Contrapartida(p, ahora)
  {
    Compensacion(p, Monto(p.montoRetirado), ahora)
  }

  /** The writes of a refund of the existing pair `parId`: the offset pair,
      if any, under the next id, then the reset of the original. */
  function Reponer(t: Table<Par>, parId: int, contra: Option<Par>): (t': Table<Par>)
    requires t.Valid() && parId in t.rows
    ensures t'.Valid()
    ensures contra.Some? ==> && t'.next == t.next + 1
                             && t'.rows.Keys == t.rows.Keys + {t.next}
                             && t'.rows[t.next] == contra.value
    ensures contra.None? ==> t'.next == t.next && t'.rows.Keys == t.rows.Keys
    ensures t'.rows[parId] == Restablecido(t.rows[parId])
    ensures forall id :: id in t.rows && id != parId ==> t'.rows[id] == t.rows[id]
  {
    var t1 := if contra.Some? then t.Insert(contra.value).0 else t;
    t1.Update(parId, Restablecido(t.rows[parId]))
  }

  /** Over the ids that existed before, the writes only remove the refunded
      pair's balance. */
  lemma ReponerAnteriores(t: Table<Par>, parId: int, contra: Option<Par>)
    requires t.Valid() && parId in t.rows
    ensures SumaDisponible(Reponer(t, parId, contra).rows, Between(t.rows.Keys, 1, t.next))
            == SaldoTotal(t) - Disponible(t.rows[parId])
  {
    var t' := Reponer(t, parId, contra);
    var xs := Between(t.rows.Keys, 1, t.next);
    AscendingIsDistinct(xs);
    forall i | 0 <= i < |xs| && xs[i] != parId
      ensures DisponibleDe(t.rows, xs[i]) == DisponibleDe(t'.rows, xs[i])
    {
      var id := xs[i];
      assert id in t.rows;
    }
    SumaCambio(t.rows, t'.rows, xs, parId);
  }

  /** The ledger after the writes: the refunded pair's balance is gone and
      the offset pair's balance, if any, is added. */
  lemma ReponerSaldo(t: Table<Par>, parId: int, contra: Option<Par>)
    requires t.Valid() && parId in t.rows
    ensures SaldoTotal(Reponer(t, parId, contra))
            == SaldoTotal(t) - Disponible(t.rows[parId]) + (if contra.Some? then Disponible(contra.value) else 0)
  {
    ReponerAnteriores(t, parId, contra);
    if contra.Some? {
      ReponerNuevo(t, parId, contra.value);
    }
  }

  /** With an offset pair, the listing of the ledger gains its id at the end. */
  lemma ReponerNuevo(t: Table<Par>, parId: int, offset: Par)
    requires t.Valid() && parId in t.rows
    ensures var t' := Reponer(t, parId, Some(offset));
            SaldoTotal(t')
            == SumaDisponible(t'.rows, Between(t.rows.Keys, 1, t.next)) + Disponible(offset)
  {
    var t' := Reponer(t, parId, Some(offset));
    var n := t.next;
    var xs := Between(t.rows.Keys, 1, n);
    BetweenAddLast(t.rows.Keys, 1, n);
    assert Between(t'.rows.Keys, 1, t'.next) == xs + [n];
    SumaConcat(t'.rows, xs, [n]);
  }

  /** The pair table after a refund of the existing pair `parId`, with the
      offset pair `contrapartida` computes for it. */
  function Refundir(t: Table<Par>, parId: int, offset: Par): (t': Table<Par>)
    requires t.Valid() && parId in t.rows
    ensures t'.Valid()
    ensures var retirado := Monto(t.rows[parId].montoRetirado) > 0;
            && t'.next == (if retirado then t.next + 1 else t.next)
            && t'.rows.Keys == (if retirado then t.rows.Keys + {t.next} else t.rows.Keys)
            && (retirado ==> t'.rows[t.next] == offset)
    ensures t'.rows[parId] == Restablecido(t.rows[parId])
    ensures forall id :: id in t.rows && id != parId ==> t'.rows[id] == t.rows[id]
  {
    Reponer(t, parId, if Monto(t.rows[parId].montoRetirado) > 0 then Some(offset) else None)
  }

  /** Every foreign key stays valid across a refund's writes. */
  lemma ReponerValida(s: Store, parId: int, contra: Option<Par>)
    requires Valid(s) && parId in s.pares.rows
    requires contra.Some? ==> contra.value.ingresoId == s.pares.rows[parId].ingresoId
                              && contra.value.depositoId == s.pares.rows[parId].depositoId
    ensures Valid(s.(pares := Reponer(s.pares, parId, contra)))
  {
    var t := Reponer(s.pares, parId, contra);
    var s' := s.(pares := t);
    forall id | id in t.rows
      ensures t.rows[id].ingresoId in s.ingresos.rows && t.rows[id].depositoId in s.depositos.rows
    {
      if id == parId || id !in s.pares.rows {
        assert t.rows[id].ingresoId == s.pares.rows[parId].ingresoId;
        assert t.rows[id].depositoId == s.pares.rows[parId].depositoId;
      } else {
        assert t.rows[id] == s.pares.rows[id];
      }
    }
    assert Referencias(s');
  }

  /** The handler as written: an unknown pair is answered with 404 and
      changes nothing; otherwise the refund is applied, with the offset pair
      created exactly when money had been withdrawn, and the answer reports
      the collected amount and whether any of it had been withdrawn. */
  function Devolver(s: Store, parId: int, ahora: int): (r: (Store, Result<Devolucion, ApiError>))
    requires Valid(s)
    ensures Valid(r.0)
    ensures r.1.Err? <==> parId !in s.pares.rows
    ensures r.1.Err? ==> r.0 == s && r.1.error == ParNoEncontrado
    ensures r.1.Ok? ==> var p := s.pares.rows[parId];
                        && r.1.value == Devolucion(Monto(p.montoAcumulado), Monto(p.montoRetirado) > 0)
                        && r.0 == s.(pares := Refundir(s.pares, parId, Contrapartida(p, ahora)))
  {
    if parId !in s.pares.rows then (s, Err(ParNoEncontrado))
    else
      var p := s.pares.rows[parId];
      var offset := Contrapartida(p, ahora);
      ReponerValida(s, parId, if Monto(p.montoRetirado) > 0 then Some(offset) else None);
      (s.(pares := Refundir(s.pares, parId, offset)),
       Ok(Devolucion(Monto(p.montoAcumulado), Monto(p.montoRetirado) > 0)))
  }

  /** The handler with the offset corrected to the withdrawn amount. */
  function DevolverCorregido(s: Store, parId: int, ahora: int): (r: (Store, Result<Devolucion, ApiError>))
    requires Valid(s)
    ensures Valid(r.0)
    ensures r.1.Err? <==> parId !in s.pares.rows
    ensures r.1.Err? ==> r.0 == s && r.1.error == ParNoEncontrado
    ensures r.1.Ok? ==> var p := s.pares.rows[parId];
                        && r.1.value == Devolucion(Monto(p.montoAcumulado), Monto(p.montoRetirado) > 0)
                        && r.0 == s.(pares := Refundir(s.pares, parId, ContrapartidaCorregida(p, ahora)))
  {
    if parId !in s.pares.rows then (s, Err(ParNoEncontrado))
    else
      var p := s.pares.rows[parId];
      var offset := ContrapartidaCorregida(p, ahora);
      ReponerValida(s, parId, if Monto(p.montoRetirado) > 0 then Some(offset) else None);
      (s.(pares := Refundir(s.pares, parId, offset)),
       Ok(Devolucion(Monto(p.montoAcumulado), Monto(p.montoRetirado) > 0)))
  }
}

=== FILE: dinero.dfy ===
/** The available-funds view: `GET /api/dinero`. It lists every sold pair
    (paid in full or in part) whose collected money has not all been
    withdrawn, with its balance, and the sum of those balances. */
module Dinero {
  import opened Wrappers
  import opened Ids
  import opened Inventario
  import opened Saldos

  /** One listed pair. `modelo` is the text `{marca} - {modelo}`;
      `montoPagado` is the collected amount. */
  datatype DineroItem = DineroItem(
    id: int,
    modelo: string,
    talle: int,
    fechaIngreso: int,
    fechaVenta: Option<int>,
    montoPagado: int,
    montoRetirado: int,
    disponible: int,
    pagado: Pagado,
    comprador: Option<string>)

  datatype DineroVista = DineroVista(items: seq<DineroItem>, total: int)

  /** The query's filter: the pair is paid in full or in part. */
  predicate Cobrado(p: Par) {
    p.pagado == Completo || p.pagado == Parcial
  }

  /** The status shown: complete once a positive price has been collected
      in full, the stored status otherwise. */
  function EstadoPago(p: Par): (e: Pagado)
    ensures e == Completo <==> p.pagado == Completo || 0 < Monto(p.montoTotal) <= Monto(p.montoAcumulado)
    ensures e != Completo ==> e == p.pagado
  {
    if Monto(p.montoTotal) > 0 && Monto(p.montoAcumulado) >= Monto(p.montoTotal) then Completo
    else p.pagado
  }

  /** The item of one pair. */
  function Item(s: Store, id: int): (it: DineroItem)
    requires Valid(s) && id in s.pares.rows
    ensures it.id == id
    ensures it.montoPagado == Monto(s.pares.rows[id].montoAcumulado)
    ensures it.montoRetirado == Monto(s.pares.rows[id].montoRetirado)
    ensures it.disponible == it.montoPagado - it.montoRetirado == Disponible(s.pares.rows[id])
    ensures it.pagado == EstadoPago(s.pares.rows[id])
    ensures it.talle == s.pares.rows[id].talle && it.comprador == s.pares.rows[id].comprador
  {
    var p := s.pares.rows[id];
    var ingreso := s.ingresos.rows[p.ingresoId];
    var modelo := s.modelos.rows[ingreso.modeloId];
    var marca := s.marcas.rows[modelo.marcaId];
    DineroItem(
      id,
      marca.nombre + " - " + modelo.nombre,
      p.talle,
      ingreso.fechaIngreso,
      p.fechaVenta,
      Monto(p.montoAcumulado),
      Monto(p.montoRetirado),
      Monto(p.montoAcumulado) - Monto(p.montoRetirado),
      EstadoPago(p),
      p.comprador)
  }

  /** The ids of a list of items, in order. */
  function IdsDe(items: seq<DineroItem>): (ids: seq<int>)
    ensures |ids| == |items|
    ensures forall i :: 0 <= i < |items| ==> ids[i] == items[i].id
  {
    seq(|items|, i requires 0 <= i < |items| => items[i].id)
  }

  /** The sum of the balances of a list of items. */
  function SumaItems(items: seq<DineroItem>): int {
    if |items| == 0 then 0 else items[0].disponible + SumaItems(items[1..])
  }

  /** The sold pairs the query returns, in primary-key order. */
  function Cobros(s: Store): (ids: seq<int>)
    requires Valid(s)
    ensures StrictlyAscending(ids)
    ensures forall id :: id in ids <==> id in s.pares.rows && Cobrado(s.pares.rows[id])
  {
    s.pares.Select(set id | id in s.pares.rows && Cobrado(s.pares.rows[id]))
  }

  /** The `map` step: one item per queried pair, in order. */
  function Mapear(s: Store, ids: seq<int>): (items: seq<DineroItem>)
    requires Valid(s)
    requires forall i :: 0 <= i < |ids| ==> ids[i] in s.pares.rows
    ensures |items| == |ids|
    ensures forall i :: 0 <= i < |ids| ==> items[i] == Item(s, ids[i])
  {
    seq(|ids|, i requires 0 <= i < |ids| => Item(s, ids[i]))
  }

  /** The `filter` step: the items whose balance is not zero, in order;
      dropping the zero balances does not change the sum. */
  function Filtrar(items: seq<DineroItem>): (r: seq<DineroItem>)
    ensures forall i :: 0 <= i < |r| ==> r[i] in items && r[i].disponible != 0
    ensures SumaItems(r) == SumaItems(items)
  {
    if |items| == 0 then []
    else if items[0].disponible != 0 then [items[0]] + Filtrar(items[1..])
    else Filtrar(items[1..])
  }

  /** The filter keeps every item with a nonzero balance and no other, and
      keeps them in order: an increasing listing stays increasing. */
  lemma {:induction false} FiltrarExacto(items: seq<DineroItem>)
    ensures forall x :: x in Filtrar(items) <==> x in items && x.disponible != 0
    ensures StrictlyAscending(IdsDe(items)) ==> StrictlyAscending(IdsDe(Filtrar(items)))
  {
    if |items| > 0 {
      var rest := Filtrar(items[1..]);
      FiltrarExacto(items[1..]);
      AscendenteCola(items);
      assert items == [items[0]] + items[1..];
      if items[0].disponible != 0 {
        assert Filtrar(items) == [items[0]] + rest;
        FiltrarCabeza(items, rest);
      } else {
        assert Filtrar(items) == rest;
      }
    }
  }

  /** Dropping the first item keeps the ids increasing. */
  lemma AscendenteCola(items: seq<DineroItem>)
    requires |items| > 0
    ensures StrictlyAscending(IdsDe(items)) ==> StrictlyAscending(IdsDe(items[1..]))
  {
    var ids, tail := IdsDe(items), IdsDe(items[1..]);
    assert forall i :: 0 <= i < |tail| ==> tail[i] == ids[i + 1];
  }

  /** The first item goes in front of a filtered rest of the later items
      without breaking the increasing order of the ids. */
  lemma FiltrarCabeza(items: seq<DineroItem>, rest: seq<DineroItem>)
    requires |items| > 0
    requires forall x :: x in rest ==> x in items[1..]
    requires StrictlyAscending(IdsDe(items[1..])) ==> StrictlyAscending(IdsDe(rest))
    ensures StrictlyAscending(IdsDe(items)) ==> StrictlyAscending(IdsDe([items[0]] + rest))
  {
    if StrictlyAscending(IdsDe(items)) {
      AscendenteCola(items);
      var ids, restIds := IdsDe(items), IdsDe(rest);
      var r := [items[0]] + rest;
      var rIds := IdsDe(r);
      forall i, j | 0 <= i < j < |r|
        ensures rIds[i] < rIds[j]
      {
        assert r[j] == rest[j - 1] && rest[j - 1] in items[1..];
        var k :| 0 <= k < |items| - 1 && items[1..][k] == rest[j - 1];
        assert rIds[j] == ids[k + 1];
        if i == 0 {
          assert rIds[i] == ids[0];
        } else {
          assert rIds[i] == restIds[i - 1] && rIds[j] == restIds[j - 1];
        }
      }
    }
  }

  /** Items that carry the ids and balances of a list of pairs are filtered
      to the pairs with a nonzero balance, and add up to the pairs' balance. */
  lemma {:induction false} FiltrarIds(items: seq<DineroItem>, pares: map<int, Par>, ids: seq<int>)
    requires |items| == |ids|
    requires forall i :: 0 <= i < |ids| ==> items[i].id == ids[i] && items[i].disponible == DisponibleDe(pares, ids[i])
    ensures IdsDe(Filtrar(items)) == Liquidables(pares, ids)
    ensures SumaItems(items) == SumaDisponible(pares, ids)
  {
    if |items| > 0 {
      var tail, tailIds := items[1..], ids[1..];
      assert forall i :: 0 <= i < |tailIds| ==> tail[i] == items[i + 1] && tailIds[i] == ids[i + 1];
      FiltrarIds(tail, pares, tailIds);
      var rest := Filtrar(tail);
      var d := items[0].disponible;
      assert d == DisponibleDe(pares, ids[0]);
      if d != 0 {
        assert Filtrar(items) == [items[0]] + rest;
        assert Liquidables(pares, ids) == [ids[0]] + Liquidables(pares, tailIds);
        assert IdsDe([items[0]] + rest) == [ids[0]] + IdsDe(rest);
      } else {
        assert Filtrar(items) == rest;
        assert Liquidables(pares, ids) == Liquidables(pares, tailIds);
      }
    }
  }

  /** The items of the queried pairs whose balance is not zero, in query
      order: exactly those pairs, each with its own item, and together they
      carry the whole balance of the query. */
  function Visibles(s: Store, ids: seq<int>): (items: seq<DineroItem>)
    requires Valid(s)
    requires forall i :: 0 <= i < |ids| ==> ids[i] in s.pares.rows
    ensures forall i :: 0 <= i < |items| ==>
              items[i].id in s.pares.rows && items[i] == Item(s, items[i].id) && items[i].disponible != 0
    ensures IdsDe(items) == Liquidables(s.pares.rows, ids)
    ensures SumaItems(items) == SumaDisponible(s.pares.rows, ids)
  {
    var all := Mapear(s, ids);
    FiltrarIds(all, s.pares.rows, ids);
    Filtrar(all)
  }

  /** The handler: the visible items and their total. Every sold pair with a
      nonzero balance is listed once, in primary-key order, and the total is
      the balance of all sold pairs. */
  function ListarDinero(s: Store): (v: DineroVista)
    requires Valid(s)
    ensures forall i :: 0 <= i < |v.items| ==>
              v.items[i].id in s.pares.rows && v.items[i] == Item(s, v.items[i].id) && v.items[i].disponible != 0
    ensures forall id :: id in IdsDe(v.items) <==>
              id in s.pares.rows && Cobrado(s.pares.rows[id]) && Disponible(s.pares.rows[id]) != 0
    ensures StrictlyAscending(IdsDe(v.items))
    ensures v.total == SumaItems(v.items) == SumaDisponible(s.pares.rows, Cobros(s))
  {
    var items := Visibles(s, Cobros(s));
    DineroVista(items, SumaItems(items))
  }
}

=== FILE: escenarios.dfy ===
/** Properties that join several handlers: what withdrawing the offset pair
    of a refund takes out, and how the amount the funds page confirms
    relates to what the withdrawal handler then sums. */
module Escenarios {
  import opened Wrappers
  import opened Ids
  import opened Tables
  import opened Inventario
  import opened Saldos
  import opened Retiros
  import opened RetiroPropiedades
  import opened Devoluciones
  import opened DevolucionPropiedades
  import opened Dinero
  import opened Seleccion

  /** A request naming one existing pair fetches just that pair. */
  lemma BuscarUno(pares: Table<Par>, id: int)
    requires pares.Valid() && id in pares.rows
    ensures Buscar(pares, [id]) == [id]
  {
    AscendingUnique(Buscar(pares, [id]), [id]);
  }

  /** Refunding a pair some of whose money had been withdrawn, then
      withdrawing the offset pair (it gets the next pair id), takes the
      whole collected amount out of the ledger, as the handler is written. */
  lemma DevolverYRetirar(s: Store, parId: int, ahora: int, luego: int)
    requires Valid(s) && parId in s.pares.rows
    requires Monto(s.pares.rows[parId].montoRetirado) > 0
    ensures var s1 := Devolver(s, parId, ahora).0;
            CrearRetiro(s1, [s.pares.next], luego).1.montoTotal == -Monto(s.pares.rows[parId].montoAcumulado)
  {
    var s1 := Devolver(s, parId, ahora).0;
    DevolverPares(s, parId, ahora);
    BuscarUno(s1.pares, s.pares.next);
  }

  /** With the corrected offset, the same sequence takes out exactly the
      cash that had been withdrawn from the pair. */
  lemma DevolverCorregidoYRetirar(s: Store, parId: int, ahora: int, luego: int)
    requires Valid(s) && parId in s.pares.rows
    requires Monto(s.pares.rows[parId].montoRetirado) > 0
    ensures var s1 := DevolverCorregido(s, parId, ahora).0;
            CrearRetiro(s1, [s.pares.next], luego).1.montoTotal == -Monto(s.pares.rows[parId].montoRetirado)
  {
    var s1 := DevolverCorregido(s, parId, ahora).0;
    var p := s.pares.rows[parId];
    assert s1.pares == Reponer(s.pares, parId, Some(ContrapartidaCorregida(p, ahora)));
    BuscarUno(s1.pares, s.pares.next);
  }

  /** The listed ids that are picked, in listed order. */
  function Elegidos(ids: seq<int>, sel: seq<int>): (r: seq<int>)
    ensures forall x :: x in r <==> x in ids && x in sel
    ensures StrictlyAscending(ids) ==> StrictlyAscending(r)
  {
    if |ids| == 0 then []
    else
      var rest := Elegidos(ids[1..], sel);
      if ids[0] !in sel then rest
      else
        assert StrictlyAscending(ids) ==> forall x :: x in rest ==> ids[0] < x by {
          if StrictlyAscending(ids) {
            assert StrictlyAscending(ids[1..]);
            forall x | x in rest
              ensures ids[0] < x
            {
              var k :| 1 <= k < |ids| && ids[k] == x;
            }
          }
        }
        var r := [ids[0]] + rest;
        assert StrictlyAscending(ids) ==> StrictlyAscending(r) by {
          if StrictlyAscending(ids) {
            assert StrictlyAscending(ids[1..]);
            forall i, j | 0 <= i < j < |r|
              ensures r[i] < r[j]
            {
              assert r[j] == rest[j - 1] && rest[j - 1] in rest;
            }
          }
        }
        r
  }

  /** The amount the page shows for a selection is the ledger balance of
      the picked listed pairs, provided the listing is the current one. */
  lemma {:induction false} MontoElegidos(s: Store, items: seq<DineroItem>, sel: seq<int>)
    requires Valid(s)
    requires forall i :: 0 <= i < |items| ==> items[i].id in s.pares.rows && items[i] == Item(s, items[i].id)
    ensures MontoSeleccionado(items, sel) == SumaDisponible(s.pares.rows, Elegidos(IdsDe(items), sel))
  {
    if |items| > 0 {
      MontoElegidos(s, items[1..], sel);
      assert IdsDe(items)[1..] == IdsDe(items[1..]);
    }
  }

  /** The amount the funds page asks to confirm is the amount the withdrawal
      handler then takes out, when the page's listing is current and only
      listed pairs are picked. */
  lemma ConfirmarCoincide(s: Store, sel: seq<int>, ahora: int)
    requires Valid(s)
    requires forall x :: x in sel ==> x in IdsDe(ListarDinero(s).items)
    ensures CrearRetiro(s, sel, ahora).1.montoTotal == MontoSeleccionado(ListarDinero(s).items, sel)
  {
    var items := ListarDinero(s).items;
    MontoElegidos(s, items, sel);
    AscendingUnique(Elegidos(IdsDe(items), sel), Buscar(s.pares, sel));
  }

  /** "Seleccionar Todos" then confirming withdraws the whole total shown. */
  lemma RetirarTodo(s: Store, ahora: int)
    requires Valid(s)
    ensures var v := ListarDinero(s);
            CrearRetiro(s, IdsDe(v.items), ahora).1.montoTotal == v.total
            && MontoSeleccionado(v.items, IdsDe(v.items)) == v.total
  {
    var v := ListarDinero(s);
    MontoCompleto(v.items, IdsDe(v.items));
    ConfirmarCoincide(s, IdsDe(v.items), ahora);
  }

  /** After the withdrawal, none of the withdrawn pairs is listed again. */
  lemma RetiradosFueraDeLista(s: Store, sel: seq<int>, ahora: int)
    requires Valid(s)
    ensures var s' := CrearRetiro(s, sel, ahora).0;
            forall x :: x in sel ==> x !in IdsDe(ListarDinero(s').items)
  {
    CrearRetiroVacia(s, sel, ahora);
  }
}

=== FILE: ids.dfy ===
/** Facts about listings of the integer primary keys the database hands out. */
module Ids {

  /** No id occurs twice. */
  predicate Distinct(xs: seq<int>) {
    forall i, j :: 0 <= i < j < |xs| ==> xs[i] != xs[j]
  }

  /** Ids in increasing order, hence without repetition. */
  predicate StrictlyAscending(xs: seq<int>) {
    forall i, j :: 0 <= i < j < |xs| ==> xs[i] < xs[j]
  }

  lemma AscendingIsDistinct(xs: seq<int>)
    requires StrictlyAscending(xs)
    ensures Distinct(xs)
  {
  }

  /** A listing without repetition has as many entries as ids. */
  lemma {:induction false} DistinctCard(xs: seq<int>)
    requires Distinct(xs)
    ensures |set x | x in xs| == |xs|
  {
    if |xs| > 0 {
      var rest := xs[1..];
      DistinctCard(rest);
      var x0 := xs[0];
      assert x0 !in rest;
      assert (set x | x in xs) == (set x | x in rest) + {x0} by {
        assert xs == [x0] + rest;
      }
    }
  }

  /** Two increasing listings of the same ids are the same listing. */
  lemma {:induction false} AscendingUnique(a: seq<int>, b: seq<int>)
    requires StrictlyAscending(a) && StrictlyAscending(b)
    requires forall x :: x in a <==> x in b
    ensures a == b
    decreases |a|
  {
    if |a| > 0 {
      var a0 := a[0];
      assert a0 in a;
      assert a0 in b;
    }
    if |b| > 0 {
      var b0 := b[0];
      assert b0 in b;
      assert b0 in a;
    }
    if |a| > 0 && |b| > 0 {
      var a0, b0 := a[0], b[0];
      assert a0 in a && b0 in b;
      var i :| 0 <= i < |a| && a[i] == b0;
      var j :| 0 <= j < |b| && b[j] == a0;
      assert forall k :: 0 <= k < |a| ==> a0 <= a[k];
      assert forall k :: 0 <= k < |b| ==> b0 <= b[k];
      assert a0 <= a[i] && b0 <= b[j];
      forall x
        ensures x in a[1..] <==> x in b[1..]
      {
        if x in a[1..] {
          var k :| 1 <= k < |a| && a[k] == x;
          assert a[0] < x;
          assert x in a;
          assert x in b;
          var k' :| 0 <= k' < |b| && b[k'] == x;
          assert k' != 0;
          assert b[1..][k' - 1] == x;
        }
        if x in b[1..] {
          var k :| 1 <= k < |b| && b[k] == x;
          assert b[0] < x;
          assert x in b;
          assert x in a;
          var k' :| 0 <= k' < |a| && a[k'] == x;
          assert k' != 0;
          assert a[1..][k' - 1] == x;
        }
      }
      AscendingUnique(a[1..], b[1..]);
      assert a == [a[0]] + a[1..];
      assert b == [b[0]] + b[1..];
    }
  }
}

=== FILE: ingresos.dfy ===
/** Recording an intake batch: `POST /api/ingresos`. The request names a
    model and a list of (size, quantity) entries; the handler picks the
    deposit, creating a default one when there is none, and creates the
    batch with one new pair per unit, all in that deposit. */
module Ingresos {
  import opened Wrappers
  import opened Listing
  import opened Tables
  import opened Inventario

  /** One entry of the request: `cantidad` pairs of size `talle`. */
  datatype Entrada = Entrada(talle: int, cantidad: int)

  /** The name of the deposit created when none exists. */
  const DepositoPrincipal: string := "Principal"

  /** `Array(cantidad)` throws for a negative length. */
  predicate EntradasValidas(entradas: seq<Entrada>) {
    forall i :: 0 <= i < |entradas| ==> entradas[i].cantidad >= 0
  }

  /** The number of pairs the entries ask for. */
  function Cantidad(entradas: seq<Entrada>): int {
    if |entradas| == 0 then 0 else entradas[0].cantidad + Cantidad(entradas[1..])
  }

  /** `talle` repeated `n` times. */
  function Repetir(talle: int, n: nat): (r: seq<int>)
    ensures |r| == n
    ensures forall i :: 0 <= i < n ==> r[i] == talle
  {
    if n == 0 then [] else [talle] + Repetir(talle, n - 1)
  }

  /** The size of every pair to create, entry by entry, each entry's size
      repeated as many times as its quantity. */
  function Talles(entradas: seq<Entrada>): (r: seq<int>)
    requires EntradasValidas(entradas)
  {
    if |entradas| == 0 then []
    else Repetir(entradas[0].talle, entradas[0].cantidad) + Talles(entradas[1..])
  }

  /** As many pairs as the entries ask for. */
  lemma {:induction false} TallesCantidad(entradas: seq<Entrada>)
    requires EntradasValidas(entradas)
    ensures |Talles(entradas)| == Cantidad(entradas)
  {
    if |entradas| > 0 {
      TallesCantidad(entradas[1..]);
    }
  }

  /** The expansion of two lists of entries is the expansion of the first
      followed by that of the second: the entries keep their order and an
      entry with quantity zero adds nothing. */
  lemma {:induction false} TallesConcat(a: seq<Entrada>, b: seq<Entrada>)
    requires EntradasValidas(a) && EntradasValidas(b)
    ensures EntradasValidas(a + b)
    ensures Talles(a + b) == Talles(a) + Talles(b)
  {
    if |a| > 0 {
      assert (a + b)[1..] == a[1..] + b;
      TallesConcat(a[1..], b);
    } else {
      assert a + b == b;
    }
  }

  /** Every created size comes from an entry with a positive quantity. */
  lemma {:induction false} TallesOrigen(entradas: seq<Entrada>)
    requires EntradasValidas(entradas)
    ensures forall i :: 0 <= i < |Talles(entradas)| ==>
              exists j :: 0 <= j < |entradas| && entradas[j].cantidad > 0 && entradas[j].talle == Talles(entradas)[i]
  {
    if |entradas| > 0 {
      TallesOrigen(entradas[1..]);
      var head := Repetir(entradas[0].talle, entradas[0].cantidad);
      var tail := Talles(entradas[1..]);
      assert Talles(entradas) == head + tail;
      forall i | 0 <= i < |Talles(entradas)|
        ensures exists j :: 0 <= j < |entradas| && entradas[j].cantidad > 0 && entradas[j].talle == Talles(entradas)[i]
      {
        if i < |head| {
          assert Talles(entradas)[i] == head[i];
          assert entradas[0].cantidad > 0 && entradas[0].talle == Talles(entradas)[i];
        } else {
          assert Talles(entradas)[i] == tail[i - |head|];
          var j :| 0 <= j < |entradas[1..]| && entradas[1..][j].cantidad > 0 && entradas[1..][j].talle == tail[i - |head|];
          assert entradas[1..][j] == entradas[j + 1];
        }
      }
    } else {
      assert Talles(entradas) == [];
    }
  }

  /** A new pair as the batch creates it: only size and deposit are given,
      so it is for sale and carries no sale. */
  function Nuevo(ingresoId: int, talle: int, depositoId: int): (p: Par)
    ensures SinVenta(p)
    ensures p.ingresoId == ingresoId && p.talle == talle && p.depositoId == depositoId
  {
    Par(ingresoId, talle, depositoId, true, NoPagado, None, None, None, None, None, None, None)
  }

  /** The new pairs of batch `ingresoId`, in entry order. */
  function Nuevos(ingresoId: int, talles: seq<int>, depositoId: int): (ps: seq<Par>)
    ensures |ps| == |talles|
    ensures forall i :: 0 <= i < |talles| ==> ps[i] == Nuevo(ingresoId, talles[i], depositoId)
  {
    seq(|talles|, i requires 0 <= i < |talles| => Nuevo(ingresoId, talles[i], depositoId))
  }

  /** `findFirst()` on the deposits, creating 'Principal' when there are
      none: the deposit table afterwards and the id of the deposit used,
      which is the lowest id when deposits exist. */
  function ElegirDeposito(t: Table<Deposito>): (r: (Table<Deposito>, int))
    requires t.Valid()
    ensures r.0.Valid() && r.1 in r.0.rows
    ensures t.rows.Keys == {} ==> r.0.rows == map[t.next := Deposito(DepositoPrincipal)]
                                  && r.0.next == t.next + 1 && r.1 == t.next
    ensures t.rows.Keys != {} ==> r.0 == t && forall k :: k in t.rows ==> r.1 <= k
  {
    if t.rows.Keys == {} then t.Insert(Deposito(DepositoPrincipal))
    else
      var xs := Between(t.rows.Keys, 1, t.next);
      BetweenAllCard(t.rows.Keys, 1, t.next);
      assert forall k :: k in t.rows ==> xs[0] <= k by {
        forall k | k in t.rows
          ensures xs[0] <= k
        {
          assert k in xs;
        }
      }
      (t, xs[0])
  }

  /** The handler. The deposit is chosen (and created if need be) first, so
      a default deposit created here stays even when the batch then fails:
      a negative quantity fails while the request is read, a model that
      does not exist fails the insert. Otherwise the batch gets the next id
      and its pairs consecutive ids, one per expanded size. */
  function CrearIngreso(s: Store, modeloId: int, entradas: seq<Entrada>, ahora: int): (r: (Store, Result<int, ApiError>))
    requires Valid(s)
    ensures Valid(r.0)
    ensures r.0.depositos == ElegirDeposito(s.depositos).0
    ensures r.0.marcas == s.marcas && r.0.modelos == s.modelos
    ensures r.0.retiros == s.retiros && r.0.parRetiros == s.parRetiros
    ensures !EntradasValidas(entradas) ==> r.1 == Err(CantidadInvalida)
    ensures EntradasValidas(entradas) && modeloId !in s.modelos.rows ==> r.1 == Err(ReferenciaInvalida)
    ensures r.1.Err? ==> r.0.ingresos == s.ingresos && r.0.pares == s.pares
    ensures r.1.Ok? <==> EntradasValidas(entradas) && modeloId in s.modelos.rows
    ensures r.1.Ok? ==> && r.1.value == s.ingresos.next
                        && r.0.ingresos == Table(s.ingresos.rows[s.ingresos.next := Ingreso(modeloId, ahora)],
                                                 s.ingresos.next + 1)
                        && r.0.pares == s.pares.InsertAll(Nuevos(r.1.value, Talles(entradas),
                                                                 ElegirDeposito(s.depositos).1))
  {
    var (depositos, depositoId) := ElegirDeposito(s.depositos);
    var s1 := s.(depositos := depositos);
    if !EntradasValidas(entradas) then (s1, Err(CantidadInvalida))
    else if modeloId !in s.modelos.rows then (s1, Err(ReferenciaInvalida))
    else
      var (ingresos, ingresoId) := s.ingresos.Insert(Ingreso(modeloId, ahora));
      var pares := s.pares.InsertAll(Nuevos(ingresoId, Talles(entradas), depositoId));
      var s2 := s1.(ingresos := ingresos, pares := pares);
      IngresoValido(s, depositos, depositoId, ingresos, ingresoId, Talles(entradas));
      (s2, Ok(ingresoId))
  }

  /** The store after a successful intake keeps every reference valid. */
  lemma IngresoValido(s: Store, depositos: Table<Deposito>, depositoId: int,
                      ingresos: Table<Ingreso>, ingresoId: int, talles: seq<int>)
    requires Valid(s)
    requires depositos.Valid() && depositoId in depositos.rows
    requires forall k :: k in s.depositos.rows ==> k in depositos.rows
    requires ingresos.Valid() && ingresoId in ingresos.rows
    requires forall k :: k in s.ingresos.rows ==> k in ingresos.rows
    requires forall k :: k in ingresos.rows && k != ingresoId ==> k in s.ingresos.rows && ingresos.rows[k] == s.ingresos.rows[k]
    requires ingresos.rows[ingresoId].modeloId in s.modelos.rows
    ensures Valid(s.(depositos := depositos, ingresos := ingresos,
                     pares := s.pares.InsertAll(Nuevos(ingresoId, talles, depositoId))))
  {
    var nuevos := Nuevos(ingresoId, talles, depositoId);
    var pares := s.pares.InsertAll(nuevos);
    var s' := s.(depositos := depositos, ingresos := ingresos, pares := pares);
    forall k | k in pares.rows
      ensures pares.rows[k].ingresoId in ingresos.rows && pares.rows[k].depositoId in depositos.rows
    {
      if k !in s.pares.rows {
        s.pares.InsertAllNew(nuevos, k);
      }
    }
    assert Referencias(s');
  }
}

=== FILE: inventario.dfy ===
/** The records the handlers read and write, and the integrity the database
    keeps between them. Money is held in integer cents. */
module Inventario {
  import opened Wrappers
  import opened Tables

  /** The `pagado` column of a pair: 'No pagado', 'Parcial' or 'Completo'. */
  datatype Pagado = NoPagado | Parcial | Completo

  datatype Deposito = Deposito(nombre: string)

  datatype Marca = Marca(nombre: string)

  datatype Modelo = Modelo(nombre: string, marcaId: int)

  /** One intake batch of a model; `fechaIngreso` is the timestamp it got on creation. */
  datatype Ingreso = Ingreso(modeloId: int, fechaIngreso: int)

  /** One physical pair of shoes (`par`). A `None` field is a NULL column;
      amounts are in cents. The available balance is
      `montoAcumulado - montoRetirado`. */
  datatype Par = Par(
    ingresoId: int,
    talle: int,
    depositoId: int,
    disponible: bool,
    pagado: Pagado,
    comprador: Option<string>,
    montoTotal: Option<int>,
    montoPagado: Option<int>,
    montoAcumulado: Option<int>,
    montoRetirado: Option<int>,
    fechaVenta: Option<int>,
    clienteId: Option<int>)

  /** One entry of a withdrawal's detail text
      `{marca} - {modelo} (Talle {talle}){comprador}: {signo}{monto}`, kept as
      its parts: `negativo` selects the `-$` prefix over `$`, and `monto` is the
      amount shown, in cents. */
  datatype DetalleLinea = DetalleLinea(
    marca: string,
    modelo: string,
    talle: int,
    comprador: string,
    negativo: bool,
    monto: nat)

  /** A withdrawal (`retiro`): its total, its detail lines (joined with ", " in
      the stored text) and its timestamp. */
  datatype Retiro = Retiro(montoTotal: int, detalle: seq<DetalleLinea>, fechaRetiro: int)

  /** The link between a withdrawal and one pair it settled (`parRetiro`). */
  datatype ParRetiro = ParRetiro(retiroId: int, parId: int, monto: int)

  /** The database: one autoincrement table per entity. Customers are not
      modelled; `clienteId` is carried as an opaque reference. */
  datatype Store = Store(
    depositos: Table<Deposito>,
    marcas: Table<Marca>,
    modelos: Table<Modelo>,
    ingresos: Table<Ingreso>,
    pares: Table<Par>,
    retiros: Table<Retiro>,
    parRetiros: Table<ParRetiro>)

  /** What a handler reports instead of its payload. The first four are
      answers the handlers write themselves (status 400, or 404 for
      `ParNoEncontrado`); the last three are failures the database or the
      runtime raises, which reach the client as a server error. */
  datatype ApiError =
    | IdRequerido          // 'ID requerido'
    | ParNoEncontrado      // 'Par no encontrado'
    | MarcaConModelos      // the brand still has models
    | ModeloConIngresos    // the model still has intake batches
    | RegistroInexistente  // `update` or `delete` of a row that does not exist
    | ReferenciaInvalida   // a foreign key that names no row
    | CantidadInvalida     // `Array(cantidad)` with a negative length

  /** `Number(x || 0)`: a NULL amount reads as 0. */
  function Monto(x: Option<int>): int {
    x.GetOr(0)
  }

  /** The money collected on a pair and not yet withdrawn. */
  function Disponible(p: Par): int {
    Monto(p.montoAcumulado) - Monto(p.montoRetirado)
  }

  /** A pair that is for sale and carries no sale: no buyer, no customer,
      no price, no sale date and no balance. */
  predicate SinVenta(p: Par) {
    && p.disponible
    && p.pagado == NoPagado
    && p.comprador.None? && p.clienteId.None?
    && p.montoTotal.None? && p.montoPagado.None?
    && p.fechaVenta.None?
    && Disponible(p) == 0
  }

  ghost predicate TablesValid(s: Store) {
    && s.depositos.Valid()
    && s.marcas.Valid()
    && s.modelos.Valid()
    && s.ingresos.Valid()
    && s.pares.Valid()
    && s.retiros.Valid()
    && s.parRetiros.Valid()
  }

  /** Every foreign key names an existing row. */
  ghost predicate Referencias(s: Store) {
    && (forall id :: id in s.modelos.rows ==> s.modelos.rows[id].marcaId in s.marcas.rows)
    && (forall id :: id in s.ingresos.rows ==> s.ingresos.rows[id].modeloId in s.modelos.rows)
    && (forall id :: id in s.pares.rows ==>
          s.pares.rows[id].ingresoId in s.ingresos.rows && s.pares.rows[id].depositoId in s.depositos.rows)
    && (forall id :: id in s.parRetiros.rows ==>
          s.parRetiros.rows[id].parId in s.pares.rows && s.parRetiros.rows[id].retiroId in s.retiros.rows)
  }

  /** The state the database keeps: valid tables and no dangling reference. */
  ghost predicate Valid(s: Store) {
    TablesValid(s) && Referencias(s)
  }

  /** The model of a pair, through its intake batch. */
  function ModeloIdDe(s: Store, p: Par): (id: int)
    requires Valid(s) && p.ingresoId in s.ingresos.rows
    ensures id in s.modelos.rows
  {
    s.ingresos.rows[p.ingresoId].modeloId
  }

  /** The brand of a pair, through its intake batch and model. */
  function MarcaIdDe(s: Store, p: Par): (id: int)
    requires Valid(s) && p.ingresoId in s.ingresos.rows
    ensures id in s.marcas.rows
  {
    s.modelos.rows[ModeloIdDe(s, p)].marcaId
  }
}

=== FILE: listing.dfy ===
/** Listing a set of ids in the order the database returns rows of a query
    that has no `orderBy`: increasing primary key. */
module Listing {
  import opened Ids

  /** The ids of `s` in the range [lo, hi), in increasing order. */
  function Between(s: set<int>, lo: int, hi: int): (xs: seq<int>)
    ensures StrictlyAscending(xs)
    ensures forall i :: 0 <= i < |xs| ==> lo <= xs[i] < hi
    ensures forall x :: x in xs <==> x in s && lo <= x < hi
    decreases hi - lo
  {
    if lo >= hi then []
    else if lo in s then [lo] + Between(s, lo + 1, hi)
    else Between(s, lo + 1, hi)
  }

  /** A set whose ids all lie in the range is listed in full. */
  lemma BetweenAllCard(s: set<int>, lo: int, hi: int)
    requires forall x :: x in s ==> lo <= x < hi
    ensures |Between(s, lo, hi)| == |s|
  {
    var xs := Between(s, lo, hi);
    AscendingIsDistinct(xs);
    DistinctCard(xs);
    assert (set x | x in xs) == s;
  }

  /** Adding the next id, larger than all others, appends it to the listing. */
  lemma BetweenAddLast(s: set<int>, lo: int, k: int)
    requires lo <= k
    ensures Between(s + {k}, lo, k + 1) == Between(s, lo, k) + [k]
  {
    var xs := Between(s, lo, k) + [k];
    assert StrictlyAscending(xs) by {
      forall i, j | 0 <= i < j < |xs|
        ensures xs[i] < xs[j]
      {
        if j == |xs| - 1 {
          var y := xs[i];
          assert y in Between(s, lo, k);
        }
      }
    }
    forall x
      ensures x in Between(s + {k}, lo, k + 1) <==> x in xs
    {
      if x == k {
        assert xs[|xs| - 1] == k;
      } else if x in xs {
        var i :| 0 <= i < |xs| && xs[i] == x;
        assert i < |xs| - 1;
        assert Between(s, lo, k)[i] == x;
      }
    }
    AscendingUnique(Between(s + {k}, lo, k + 1), xs);
  }
}

=== FILE: marcas.dfy ===
/** Brands: `POST /api/marcas` creates one, `DELETE /api/marcas?id=`
    removes one unless some model still belongs to it. */
module Marcas {
  import opened Wrappers
  import opened Tables
  import opened Inventario

  /** The brand `id` still has models (`modelo.count({ where: { marcaId } }) > 0`). */
  predicate TieneModelos(s: Store, id: int) {
    exists k :: k in s.modelos.rows && s.modelos.rows[k].marcaId == id
  }

  /** Adds exactly one brand, with the given name, under a fresh id. */
  function CrearMarca(s: Store, nombre: string): (r: (Store, int))
    requires Valid(s)
    ensures Valid(r.0)
    ensures r.1 !in s.marcas.rows
    ensures r.0.marcas.rows == s.marcas.rows[r.1 := Marca(nombre)]
    ensures r.0 == s.(marcas := r.0.marcas)
  {
    var (marcas, id) := s.marcas.Insert(Marca(nombre));
    (s.(marcas := marcas), id)
  }

  /** The delete handler. Without an id it answers 'ID requerido'; a brand
      with models is refused; deleting a brand that does not exist fails in
      the database. In each of these cases the store is unchanged. */
  function EliminarMarca(s: Store, id: Option<int>): (r: (Store, Result<(), ApiError>))
    requires Valid(s)
    ensures Valid(r.0)
    ensures id.None? ==> r == (s, Err(IdRequerido))
    ensures id.Some? && TieneModelos(s, id.value) ==> r == (s, Err(MarcaConModelos))
    ensures id.Some? && !TieneModelos(s, id.value) && id.value !in s.marcas.rows ==> r == (s, Err(RegistroInexistente))
    ensures r.1.Ok? <==> id.Some? && id.value in s.marcas.rows && !TieneModelos(s, id.value)
    ensures r.1.Ok? ==> && r.0.marcas.rows.Keys == s.marcas.rows.Keys - {id.value}
                        && (forall k :: k in r.0.marcas.rows ==> r.0.marcas.rows[k] == s.marcas.rows[k])
                        && r.0 == s.(marcas := r.0.marcas)
  {
    if id.None? then (s, Err(IdRequerido))
    else if TieneModelos(s, id.value) then (s, Err(MarcaConModelos))
    else if id.value !in s.marcas.rows then (s, Err(RegistroInexistente))
    else
      var s' := s.(marcas := s.marcas.Remove(id.value));
      assert Referencias(s') by {
        forall k | k in s.modelos.rows
          ensures s.modelos.rows[k].marcaId in s'.marcas.rows
        {
          assert s.modelos.rows[k].marcaId != id.value;
        }
      }
      (s', Ok(()))
  }

  /** Deleting a brand right after creating it is accepted (it cannot have
      models yet) and restores every brand; only the id counter has moved on. */
  lemma CrearEliminarMarca(s: Store, nombre: string)
    requires Valid(s)
    ensures var (s1, id) := CrearMarca(s, nombre);
            EliminarMarca(s1, Some(id)) == (s.(marcas := Table(s.marcas.rows, s.marcas.next + 1)), Ok(()))
  {
    var (s1, id) := CrearMarca(s, nombre);
    assert !TieneModelos(s1, id) by {
      forall k | k in s1.modelos.rows
        ensures s1.modelos.rows[k].marcaId != id
      {
        assert s.modelos.rows[k].marcaId in s.marcas.rows;
      }
    }
    assert (s1.marcas.rows - {id}) == s.marcas.rows;
  }
}

=== FILE: modelos.dfy ===
/** Models: `POST /api/modelos` creates one under a brand, `PUT` renames
    one, `DELETE` removes one unless an intake batch still refers to it. */
module Modelos {
  import opened Wrappers
  import opened Tables
  import opened Inventario

  /** The model `id` has intake batches (`ingreso.count({ where: { modeloId } }) > 0`). */
  predicate TieneIngresos(s: Store, id: int) {
    exists k :: k in s.ingresos.rows && s.ingresos.rows[k].modeloId == id
  }

  /** Adds one model with the given name and brand; a brand that does not
      exist fails the insert and nothing is written. */
  function CrearModelo(s: Store, nombre: string, marcaId: int): (r: (Store, Result<int, ApiError>))
    requires Valid(s)
    ensures Valid(r.0)
    ensures r.1.Err? <==> marcaId !in s.marcas.rows
    ensures r.1.Err? ==> r == (s, Err(ReferenciaInvalida))
    ensures r.1.Ok? ==> && r.1.value !in s.modelos.rows
                        && r.0.modelos.rows == s.modelos.rows[r.1.value := Modelo(nombre, marcaId)]
                        && r.0 == s.(modelos := r.0.modelos)
  {
    if marcaId !in s.marcas.rows then (s, Err(ReferenciaInvalida))
    else
      var (modelos, id) := s.modelos.Insert(Modelo(nombre, marcaId));
      (s.(modelos := modelos), Ok(id))
  }

  /** The rename handler: only the model's name changes; its brand and every
      other model stay as they were. */
  function ActualizarModelo(s: Store, id: Option<int>, nombre: string): (r: (Store, Result<int, ApiError>))
    requires Valid(s)
    ensures Valid(r.0)
    ensures id.None? ==> r == (s, Err(IdRequerido))
    ensures id.Some? && id.value !in s.modelos.rows ==> r == (s, Err(RegistroInexistente))
    ensures r.1.Ok? <==> id.Some? && id.value in s.modelos.rows
    ensures r.1.Ok? ==> && r.1.value == id.value
                        && r.0.modelos.rows.Keys == s.modelos.rows.Keys
                        && r.0.modelos.rows[id.value].nombre == nombre
                        && r.0.modelos.rows[id.value].marcaId == s.modelos.rows[id.value].marcaId
                        && (forall k :: k in s.modelos.rows && k != id.value ==>
                              r.0.modelos.rows[k] == s.modelos.rows[k])
                        && r.0 == s.(modelos := r.0.modelos)
  {
    if id.None? then (s, Err(IdRequerido))
    else if id.value !in s.modelos.rows then (s, Err(RegistroInexistente))
    else
      var m := s.modelos.rows[id.value];
      (s.(modelos := s.modelos.Update(id.value, m.(nombre := nombre))), Ok(id.value))
  }

  /** The delete handler: refused while an intake batch refers to the
      model; otherwise the model is removed and nothing else changes. */
  function EliminarModelo(s: Store, id: Option<int>): (r: (Store, Result<(), ApiError>))
    requires Valid(s)
    ensures Valid(r.0)
    ensures id.None? ==> r == (s, Err(IdRequerido))
    ensures id.Some? && TieneIngresos(s, id.value) ==> r == (s, Err(ModeloConIngresos))
    ensures id.Some? && !TieneIngresos(s, id.value) && id.value !in s.modelos.rows ==> r == (s, Err(RegistroInexistente))
    ensures r.1.Ok? <==> id.Some? && id.value in s.modelos.rows && !TieneIngresos(s, id.value)
    ensures r.1.Ok? ==> && r.0.modelos.rows.Keys == s.modelos.rows.Keys - {id.value}
                        && (forall k :: k in r.0.modelos.rows ==> r.0.modelos.rows[k] == s.modelos.rows[k])
                        && r.0 == s.(modelos := r.0.modelos)
  {
    if id.None? then (s, Err(IdRequerido))
    else if TieneIngresos(s, id.value) then (s, Err(ModeloConIngresos))
    else if id.value !in s.modelos.rows then (s, Err(RegistroInexistente))
    else
      var s' := s.(modelos := s.modelos.Remove(id.value));
      assert Referencias(s') by {
        forall k | k in s.ingresos.rows
          ensures s.ingresos.rows[k].modeloId in s'.modelos.rows
        {
          assert s.ingresos.rows[k].modeloId != id.value;
        }
      }
      (s', Ok(()))
  }

  /** Deleting a model right after creating it is accepted (no intake batch
      can refer to it yet) and restores every model. */
  lemma CrearEliminarModelo(s: Store, nombre: string, marcaId: int)
    requires Valid(s) && marcaId in s.marcas.rows
    ensures var (s1, r) := CrearModelo(s, nombre, marcaId);
            && r.Ok?
            && EliminarModelo(s1, Some(r.value)) == (s.(modelos := Table(s.modelos.rows, s.modelos.next + 1)), Ok(()))
  {
    var (s1, r) := CrearModelo(s, nombre, marcaId);
    var id := r.value;
    assert !TieneIngresos(s1, id) by {
      forall k | k in s1.ingresos.rows
        ensures s1.ingresos.rows[k].modeloId != id
      {
        assert s.ingresos.rows[k].modeloId in s.modelos.rows;
      }
    }
    assert (s1.modelos.rows - {id}) == s.modelos.rows;
  }

  /** Renaming twice is renaming once with the second name. */
  lemma ActualizarDosVeces(s: Store, id: int, a: string, b: string)
    requires Valid(s) && id in s.modelos.rows
    ensures ActualizarModelo(ActualizarModelo(s, Some(id), a).0, Some(id), b) == ActualizarModelo(s, Some(id), b)
  {
    var s1 := ActualizarModelo(s, Some(id), a).0;
    assert s1.modelos.rows[id].marcaId == s.modelos.rows[id].marcaId;
    assert ActualizarModelo(s1, Some(id), b).0.modelos.rows == ActualizarModelo(s, Some(id), b).0.modelos.rows;
  }
}

=== FILE: retiro_propiedades.dfy ===
/** What a withdrawal does to the store, stated over the handler as a
    whole: the detail lines, the links and their amounts, the settled
    pairs, and what repeating the request does. */
module RetiroPropiedades {
  import opened Inventario
  import opened Retiros

  /** One detail line per settled pair, in order. */
  lemma CrearRetiroDetalle(s: Store, paresIds: seq<int>, ahora: int)
    requires Valid(s)
    ensures var retiro := CrearRetiro(s, paresIds, ahora).1;
            var settled := Liquidadas(s, paresIds);
            && |retiro.detalle| == |settled|
            && forall i :: 0 <= i < |settled| ==> retiro.detalle[i] == Linea(s, settled[i])
  {
    TotalizarLineas(s, Buscar(s.pares, paresIds));
  }

  /** The amounts of the new links add up to the withdrawal's total. */
  lemma CrearRetiroMontos(s: Store, paresIds: seq<int>, ahora: int)
    requires Valid(s)
    ensures var r := CrearRetiro(s, paresIds, ahora);
            SumaMontos(Enlaces(s.pares.rows, s.retiros.next, Liquidadas(s, paresIds))) == r.1.montoTotal
  {
  }

  /** Settling marks exactly the pairs the request settles as withdrawn
      and leaves every other pair as it was. */
  lemma CrearRetiroSalda(s: Store, paresIds: seq<int>, ahora: int)
    requires Valid(s)
    ensures var s' := CrearRetiro(s, paresIds, ahora).0;
            && s'.pares.next == s.pares.next && s'.pares.rows.Keys == s.pares.rows.Keys
            && (forall id :: Liquidado(s.pares.rows, paresIds, id) ==> s'.pares.rows[id] == Saldado(s.pares.rows[id]))
            && (forall id :: id in s.pares.rows && !Liquidado(s.pares.rows, paresIds, id) ==>
                  s'.pares.rows[id] == s.pares.rows[id])
  {
  }

  /** Settling appends one link per settled pair under fresh ids and
      leaves the existing links as they were. */
  lemma CrearRetiroEnlaza(s: Store, paresIds: seq<int>, ahora: int)
    requires Valid(s)
    ensures var links := CrearRetiro(s, paresIds, ahora).0.parRetiros;
            var n := s.parRetiros.next;
            var settled := Liquidadas(s, paresIds);
            && links.next == n + |settled|
            && (forall k :: k in links.rows <==> k in s.parRetiros.rows || n <= k < n + |settled|)
            && (forall k :: k in s.parRetiros.rows ==> k in links.rows && links.rows[k] == s.parRetiros.rows[k])
  {
    var r := CrearRetiro(s, paresIds, ahora);
    assert r.0.parRetiros == Enlazar(s.parRetiros, s.pares.rows, s.retiros.next, Liquidadas(s, paresIds));
  }

  /** The link of the `i`-th settled pair, in primary-key order, names the
      new withdrawal and carries the pair's balance before settlement. */
  lemma CrearRetiroEnlace(s: Store, paresIds: seq<int>, ahora: int, i: int)
    requires Valid(s)
    requires 0 <= i < |Liquidadas(s, paresIds)|
    ensures Liquidadas(s, paresIds)[i] in s.pares.rows
    ensures s.parRetiros.next + i in CrearRetiro(s, paresIds, ahora).0.parRetiros.rows
    ensures CrearRetiro(s, paresIds, ahora).0.parRetiros.rows[s.parRetiros.next + i]
            == ParRetiro(s.retiros.next, Liquidadas(s, paresIds)[i], Disponible(s.pares.rows[Liquidadas(s, paresIds)[i]]))
  {
    AsentarEnlace(s, Liquidadas(s, paresIds), CrearRetiro(s, paresIds, ahora).1, i);
  }

  /** After a withdrawal, every pair it named has a zero balance. */
  lemma CrearRetiroVacia(s: Store, paresIds: seq<int>, ahora: int)
    requires Valid(s)
    ensures var s' := CrearRetiro(s, paresIds, ahora).0;
            forall id :: id in paresIds && id in s'.pares.rows ==> Disponible(s'.pares.rows[id]) == 0
  {
    var s' := CrearRetiro(s, paresIds, ahora).0;
    CrearRetiroSalda(s, paresIds, ahora);
    forall id | id in paresIds && id in s'.pares.rows
      ensures Disponible(s'.pares.rows[id]) == 0
    {
      if !Liquidado(s.pares.rows, paresIds, id) {
        assert s'.pares.rows[id] == s.pares.rows[id];
      }
    }
  }

  /** Repeating a withdrawal settles nothing: the second one totals zero,
      has no detail lines, leaves the pairs and the links as they were and
      only adds its own, empty, withdrawal row. */
  lemma {:induction false} LiquidarDeNuevo(s: Store, paresIds: seq<int>, ahora: int, luego: int)
    requires Valid(s)
    ensures var s1 := CrearRetiro(s, paresIds, ahora).0;
            var r2 := CrearRetiro(s1, paresIds, luego);
            && r2.1.montoTotal == 0
            && r2.1.detalle == []
            && r2.0.pares == s1.pares
            && r2.0.parRetiros == s1.parRetiros
  {
    var s1 := CrearRetiro(s, paresIds, ahora).0;
    CrearRetiroVacia(s, paresIds, ahora);
    var settled := Liquidadas(s1, paresIds);
    assert |settled| > 0 ==> Liquidado(s1.pares.rows, paresIds, settled[0]);
    assert settled == [];
    CrearRetiroDetalle(s1, paresIds, luego);
    var r2 := CrearRetiro(s1, paresIds, luego);
    assert r2.0.pares.rows == s1.pares.rows;
    assert r2.0.parRetiros.rows == s1.parRetiros.rows;
  }
}

=== FILE: retiros.dfy ===
/** Settling a withdrawal: `POST /api/retiros`. The handler reads the pairs
    the request names, adds up their available balances into one withdrawal,
    marks each pair with a nonzero balance as fully withdrawn and links it to
    the withdrawal with the amount it contributed. */
module Retiros {
  import opened Wrappers
  import opened Ids
  import opened Tables
  import opened Inventario
  import opened Saldos

  /** `findMany({ where: { id: { in: paresIds } } })`: every pair the request
      names, once, in primary-key order; ids that name no pair are dropped. */
  function Buscar(pares: Table<Par>, paresIds: seq<int>): (fetched: seq<int>)
    requires pares.Valid()
    ensures StrictlyAscending(fetched)
    ensures forall id :: id in fetched <==> id in paresIds && id in pares.rows
  {
    pares.Select(set id | id in paresIds)
  }

  /** The pair `id` is settled by a request for `paresIds`: it exists, the
      request names it and its balance is not zero. */
  predicate Liquidado(pares: map<int, Par>, paresIds: seq<int>, id: int) {
    id in paresIds && id in pares && Disponible(pares[id]) != 0
  }

  /** The buyer part of a detail line: ` - {comprador}` when there is a
      non-empty buyer, nothing otherwise. */
  function SufijoComprador(c: Option<string>): (r: string)
    ensures r == "" <==> c.None? || c.value == ""
    ensures r != "" ==> |r| > 3 && r[..3] == " - " && c == Some(r[3..])
  {
    if c.Some? && c.value != "" then " - " + c.value else ""
  }

  /** The signed amount a detail line shows. */
  function Firmado(l: DetalleLinea): int {
    if l.negativo then -(l.monto as int) else l.monto as int
  }

  /** The detail line of one settled pair. */
  function Linea(s: Store, id: int): (l: DetalleLinea)
    requires Valid(s) && id in s.pares.rows
    ensures l.negativo <==> Disponible(s.pares.rows[id]) < 0
    ensures Firmado(l) == Disponible(s.pares.rows[id])
    ensures l.talle == s.pares.rows[id].talle
    ensures l.marca == s.marcas.rows[MarcaIdDe(s, s.pares.rows[id])].nombre
    ensures l.modelo == s.modelos.rows[ModeloIdDe(s, s.pares.rows[id])].nombre
  {
    var p := s.pares.rows[id];
    var d := Disponible(p);
    DetalleLinea(
      s.marcas.rows[MarcaIdDe(s, p)].nombre,
      s.modelos.rows[ModeloIdDe(s, p)].nombre,
      p.talle,
      SufijoComprador(p.comprador),
      !(d >= 0),
      if d >= 0 then d else -d)
  }

  /** The buyer part of a detail line: nothing for a NULL or empty buyer,
      otherwise ` - ` followed by the pair's buyer. */
  lemma LineaComprador(s: Store, id: int)
    requires Valid(s) && id in s.pares.rows
    ensures var c := s.pares.rows[id].comprador;
            && Linea(s, id).comprador == SufijoComprador(c)
            && (c.Some? && c.value != "" ==> Linea(s, id).comprador == " - " + c.value)
            && (c.None? || c.value == "" ==> Linea(s, id).comprador == "")
  {
  }

  /** The first loop: the total of the nonzero balances and one detail line
      per pair that has one. */
  function Totalizar(s: Store, fetched: seq<int>): (r: (int, seq<DetalleLinea>))
    requires Valid(s)
    requires forall i :: 0 <= i < |fetched| ==> fetched[i] in s.pares.rows
    ensures r.0 == SumaDisponible(s.pares.rows, fetched)
    ensures |r.1| == |Liquidables(s.pares.rows, fetched)|
  {
    if |fetched| == 0 then (0, [])
    else
      var rest := Totalizar(s, fetched[1..]);
      var d := Disponible(s.pares.rows[fetched[0]]);
      if d != 0 then (d + rest.0, [Linea(s, fetched[0])] + rest.1)
      else rest
  }

  /** The detail lines are those of the settled pairs, in the same order. */
  lemma {:induction false} TotalizarLineas(s: Store, fetched: seq<int>)
    requires Valid(s)
    requires forall i :: 0 <= i < |fetched| ==> fetched[i] in s.pares.rows
    ensures forall i :: 0 <= i < |Totalizar(s, fetched).1| ==>
              Totalizar(s, fetched).1[i] == Linea(s, Liquidables(s.pares.rows, fetched)[i])
  {
    if |fetched| > 0 {
      var tail := fetched[1..];
      TotalizarLineas(s, tail);
      var id := fetched[0];
      var lines, settled := Totalizar(s, tail).1, Liquidables(s.pares.rows, tail);
      assert DisponibleDe(s.pares.rows, id) == Disponible(s.pares.rows[id]);
      if Disponible(s.pares.rows[id]) != 0 {
        assert Totalizar(s, fetched).1 == [Linea(s, id)] + lines;
        assert Liquidables(s.pares.rows, fetched) == [id] + settled;
        forall i | 0 < i < |Totalizar(s, fetched).1|
          ensures Totalizar(s, fetched).1[i] == Linea(s, Liquidables(s.pares.rows, fetched)[i])
        {
          assert Totalizar(s, fetched).1[i] == lines[i - 1];
          assert Liquidables(s.pares.rows, fetched)[i] == settled[i - 1];
        }
      } else {
        assert Totalizar(s, fetched).1 == lines;
        assert Liquidables(s.pares.rows, fetched) == settled;
      }
    }
  }

  /** A pair after settlement: everything collected counts as withdrawn. */
  function Saldado(p: Par): (q: Par)
    ensures Disponible(q) == 0
    ensures Monto(q.montoAcumulado) == Monto(p.montoAcumulado)
    ensures q == p.(montoRetirado := q.montoRetirado)
    ensures q.ingresoId == p.ingresoId && q.depositoId == p.depositoId
  {
    p.(montoRetirado := Some(Monto(p.montoAcumulado)))
  }

  /** The pairs after the second loop's updates. */
  function Saldar(pares: map<int, Par>, settled: seq<int>): (r: map<int, Par>)
    ensures r.Keys == pares.Keys
    ensures forall id :: id in pares && id in settled ==> r[id] == Saldado(pares[id])
    ensures forall id :: id in pares && id !in settled ==> r[id] == pares[id]
  {
    map id | id in pares :: if id in settled then Saldado(pares[id]) else pares[id]
  }

  /** The sum of the amounts of a list of links. */
  function SumaMontos(links: seq<ParRetiro>): int {
    if |links| == 0 then 0 else links[0].monto + SumaMontos(links[1..])
  }

  /** The links the second loop creates: one per settled pair, carrying the
      balance it had before settlement. */
  function Enlaces(pares: map<int, Par>, retiroId: int, settled: seq<int>): (links: seq<ParRetiro>)
    ensures |links| == |settled|
    ensures forall i :: 0 <= i < |links| ==>
              links[i] == ParRetiro(retiroId, settled[i], DisponibleDe(pares, settled[i]))
    ensures SumaMontos(links) == SumaDisponible(pares, settled)
  {
    if |settled| == 0 then []
    else [ParRetiro(retiroId, settled[0], DisponibleDe(pares, settled[0]))]
         + Enlaces(pares, retiroId, settled[1..])
  }

  /** The link table after the second loop: one new row per settled pair,
      in order, under fresh ids; the existing links stay as they were. */
  function Enlazar(t: Table<ParRetiro>, pares: map<int, Par>, retiroId: int, settled: seq<int>): (t': Table<ParRetiro>)
    requires t.Valid()
    requires forall i :: 0 <= i < |settled| ==> settled[i] in pares
    ensures t'.Valid()
    ensures t'.next == t.next + |settled|
    ensures forall k :: k in t'.rows <==> k in t.rows || t.next <= k < t.next + |settled|
    ensures forall k :: k in t.rows ==> t'.rows[k] == t.rows[k]
    ensures forall i :: 0 <= i < |settled| ==>
              t'.rows[t.next + i] == ParRetiro(retiroId, settled[i], Disponible(pares[settled[i]]))
  {
    var links := Enlaces(pares, retiroId, settled);
    assert forall i :: 0 <= i < |settled| ==>
             links[i] == ParRetiro(retiroId, settled[i], Disponible(pares[settled[i]])) by {
      forall i | 0 <= i < |settled|
        ensures links[i] == ParRetiro(retiroId, settled[i], Disponible(pares[settled[i]]))
      {
        var id := settled[i];
        assert id in pares;
        assert links[i] == ParRetiro(retiroId, id, DisponibleDe(pares, id));
      }
    }
    t.InsertAll(links)
  }

  /** One row of `Enlazar`. */
  lemma EnlazarEn(t: Table<ParRetiro>, pares: map<int, Par>, retiroId: int, settled: seq<int>, i: int)
    requires t.Valid()
    requires forall i :: 0 <= i < |settled| ==> settled[i] in pares
    requires 0 <= i < |settled|
    ensures t.next + i in Enlazar(t, pares, retiroId, settled).rows
    ensures settled[i] in pares
    ensures Enlazar(t, pares, retiroId, settled).rows[t.next + i] == ParRetiro(retiroId, settled[i], Disponible(pares[settled[i]]))
  {
  }

  /** The writes of the handler: the withdrawal under the
      next id, the settled pairs marked as withdrawn, one link per settled pair. */
  function Asentar(s: Store, settled: seq<int>, retiro: Retiro): (s': Store)
    requires Valid(s)
    requires forall i :: 0 <= i < |settled| ==> settled[i] in s.pares.rows
    ensures Valid(s')
    ensures s.retiros.next !in s.retiros.rows
    ensures s'.retiros == Table(s.retiros.rows[s.retiros.next := retiro], s.retiros.next + 1)
    ensures s'.pares == Table(Saldar(s.pares.rows, settled), s.pares.next)
    ensures s'.parRetiros == Enlazar(s.parRetiros, s.pares.rows, s.retiros.next, settled)
    ensures s'.depositos == s.depositos && s'.marcas == s.marcas
    ensures s'.modelos == s.modelos && s'.ingresos == s.ingresos
  {
    var created := s.retiros.Insert(retiro);
    LiquidacionValida(s, settled, retiro);
    s.(retiros := created.0,
       pares := Table(Saldar(s.pares.rows, settled), s.pares.next),
       parRetiros := Enlazar(s.parRetiros, s.pares.rows, created.1, settled))
  }

  /** The link of the `i`-th settled pair names the withdrawal and carries
      the pair's balance before settlement. */
  lemma AsentarEnlace(s: Store, settled: seq<int>, retiro: Retiro, i: int)
    requires Valid(s)
    requires forall i :: 0 <= i < |settled| ==> settled[i] in s.pares.rows
    requires 0 <= i < |settled|
    ensures s.parRetiros.next + i in Asentar(s, settled, retiro).parRetiros.rows
    ensures Asentar(s, settled, retiro).parRetiros.rows[s.parRetiros.next + i]
            == ParRetiro(s.retiros.next, settled[i], Disponible(s.pares.rows[settled[i]]))
  {
    EnlazarEn(s.parRetiros, s.pares.rows, s.retiros.next, settled, i);
  }

  /** Every link, old or new, names an existing pair and withdrawal. */
  lemma EnlazarReferencias(t: Table<ParRetiro>, pares: map<int, Par>, retiroId: int, settled: seq<int>, retiros: set<int>)
    requires t.Valid()
    requires forall i :: 0 <= i < |settled| ==> settled[i] in pares
    requires retiroId in retiros
    requires forall k :: k in t.rows ==> t.rows[k].parId in pares && t.rows[k].retiroId in retiros
    ensures var t' := Enlazar(t, pares, retiroId, settled);
            forall k :: k in t'.rows ==> t'.rows[k].parId in pares && t'.rows[k].retiroId in retiros
  {
    var t' := Enlazar(t, pares, retiroId, settled);
    forall k | k in t'.rows
      ensures t'.rows[k].parId in pares && t'.rows[k].retiroId in retiros
    {
      if k !in t.rows {
        var i := k - t.next;
        assert t'.rows[t.next + i].parId == settled[i];
      }
    }
  }

  /** The store the handler leaves keeps every reference valid. */
  lemma LiquidacionValida(s: Store, settled: seq<int>, retiro: Retiro)
    requires Valid(s)
    requires forall i :: 0 <= i < |settled| ==> settled[i] in s.pares.rows
    ensures var created := s.retiros.Insert(retiro);
            Valid(s.(retiros := created.0,
                     pares := Table(Saldar(s.pares.rows, settled), s.pares.next),
                     parRetiros := Enlazar(s.parRetiros, s.pares.rows, created.1, settled)))
  {
    var created := s.retiros.Insert(retiro);
    var pares := Table(Saldar(s.pares.rows, settled), s.pares.next);
    var table := Enlazar(s.parRetiros, s.pares.rows, created.1, settled);
    var s' := s.(retiros := created.0, pares := pares, parRetiros := table);
    assert pares.Valid();
    assert TablesValid(s');
    forall id | id in pares.rows
      ensures pares.rows[id].ingresoId in s'.ingresos.rows && pares.rows[id].depositoId in s'.depositos.rows
    {
      assert pares.rows[id].ingresoId == s.pares.rows[id].ingresoId;
      assert pares.rows[id].depositoId == s.pares.rows[id].depositoId;
    }
    EnlazarReferencias(s.parRetiros, s.pares.rows, created.1, settled, created.0.rows.Keys);
    assert Referencias(s');
  }

  /** The handler: the store after the withdrawal, and the withdrawal it
      answers with. The withdrawal is stored under the next id, even when it
      settles nothing. */
  function CrearRetiro(s: Store, paresIds: seq<int>, ahora: int): (r: (Store, Retiro))
    requires Valid(s)
    ensures Valid(r.0)
    ensures r.1.montoTotal == SumaDisponible(s.pares.rows, Buscar(s.pares, paresIds))
    ensures r.1.fechaRetiro == ahora
    ensures r.0 == Asentar(s, Liquidadas(s, paresIds), r.1)
  {
    var fetched := Buscar(s.pares, paresIds);
    var tally := Totalizar(s, fetched);
    var retiro := Retiro(tally.0, tally.1, ahora);
    (Asentar(s, Liquidadas(s, paresIds), retiro), retiro)
  }

  /** The pairs a request for `paresIds` settles, in primary-key order. */
  function Liquidadas(s: Store, paresIds: seq<int>): (settled: seq<int>)
    requires s.pares.Valid()
    ensures StrictlyAscending(settled)
    ensures forall id :: id in settled <==> Liquidado(s.pares.rows, paresIds, id)
    ensures forall i :: 0 <= i < |settled| ==> settled[i] in s.pares.rows
    ensures SumaDisponible(s.pares.rows, settled) == SumaDisponible(s.pares.rows, Buscar(s.pares, paresIds))
  {
    var settled := Liquidables(s.pares.rows, Buscar(s.pares, paresIds));
    assert forall id :: id in settled <==> Liquidado(s.pares.rows, paresIds, id) by {
      forall id ensures id in settled <==> Liquidado(s.pares.rows, paresIds, id) {
        if id in s.pares.rows {
          assert DisponibleDe(s.pares.rows, id) == Disponible(s.pares.rows[id]);
        }
      }
    }
    settled
  }
}

=== FILE: saldos.dfy ===
/** Sums of available balances over listings of pairs. */
module Saldos {
  import opened Ids
  import opened Listing
  import opened Tables
  import opened Inventario

  /** The balance of the pair `id`, or 0 when no pair has that id. */
  function DisponibleDe(pares: map<int, Par>, id: int): int {
    if id in pares then Disponible(pares[id]) else 0
  }

  /** The sum of the balances of the listed pairs. */
  function SumaDisponible(pares: map<int, Par>, ids: seq<int>): int {
    if |ids| == 0 then 0 else DisponibleDe(pares, ids[0]) + SumaDisponible(pares, ids[1..])
  }

  /** The listed pairs whose balance is not zero, in listed order; they
      carry the whole sum. */
  function Liquidables(pares: map<int, Par>, fetched: seq<int>): (settled: seq<int>)
    ensures forall id :: id in settled <==> id in fetched && DisponibleDe(pares, id) != 0
    ensures forall i :: 0 <= i < |settled| ==> settled[i] in pares && Disponible(pares[settled[i]]) != 0
    ensures StrictlyAscending(fetched) ==> StrictlyAscending(settled)
    ensures SumaDisponible(pares, settled) == SumaDisponible(pares, fetched)
  {
    if |fetched| == 0 then []
    else if DisponibleDe(pares, fetched[0]) != 0 then [fetched[0]] + Liquidables(pares, fetched[1..])
    else Liquidables(pares, fetched[1..])
  }

  /** All money collected and not yet withdrawn, over every pair. */
  ghost function SaldoTotal(pares: Table<Par>): int {
    SumaDisponible(pares.rows, Between(pares.rows.Keys, 1, pares.next))
  }

  lemma {:induction false} SumaConcat(pares: map<int, Par>, a: seq<int>, b: seq<int>)
    ensures SumaDisponible(pares, a + b) == SumaDisponible(pares, a) + SumaDisponible(pares, b)
  {
    if |a| > 0 {
      assert (a + b)[1..] == a[1..] + b;
      SumaConcat(pares, a[1..], b);
    } else {
      assert a + b == b;
    }
  }

  /** Two stores that agree on the balances of the listed pairs give the same sum. */
  lemma {:induction false} SumaIgual(p1: map<int, Par>, p2: map<int, Par>, ids: seq<int>)
    requires forall i :: 0 <= i < |ids| ==> DisponibleDe(p1, ids[i]) == DisponibleDe(p2, ids[i])
    ensures SumaDisponible(p1, ids) == SumaDisponible(p2, ids)
  {
    if |ids| > 0 {
      SumaIgual(p1, p2, ids[1..]);
    }
  }

  /** Changing the balance of one listed pair changes the sum by the difference. */
  lemma {:induction false} SumaCambio(p1: map<int, Par>, p2: map<int, Par>, ids: seq<int>, k: int)
    requires Distinct(ids) && k in ids
    requires forall i :: 0 <= i < |ids| && ids[i] != k ==> DisponibleDe(p1, ids[i]) == DisponibleDe(p2, ids[i])
    ensures SumaDisponible(p2, ids) == SumaDisponible(p1, ids) - DisponibleDe(p1, k) + DisponibleDe(p2, k)
  {
    var rest := ids[1..];
    assert Distinct(rest);
    if ids[0] == k {
      assert k !in rest;
      SumaIgual(p1, p2, rest);
    } else {
      assert k in rest;
      SumaCambio(p1, p2, rest, k);
    }
  }
}

=== FILE: seleccion.dfy ===
/** The selection state of the available-funds page: which listed pairs
    are picked for a withdrawal, the amount they add up to, and when the
    withdrawal request is sent. */
module Seleccion {
  import opened Wrappers
  import opened Ids
  import opened Dinero

  /** The page: the listing last fetched and the ids picked, in the order
      they were picked. */
  datatype Pagina = Pagina(items: seq<DineroItem>, total: int, seleccionados: seq<int>)

  /** `filter(item => item !== id)`: every occurrence of `id` removed, the
      rest in order. */
  function Quitar(sel: seq<int>, id: int): (r: seq<int>)
    ensures forall x :: x in r <==> x in sel && x != id
    ensures Distinct(sel) ==> Distinct(r)
    ensures id !in sel ==> r == sel
  {
    if |sel| == 0 then []
    else if sel[0] == id then Quitar(sel[1..], id)
    else
      var rest := Quitar(sel[1..], id);
      assert sel[0] !in sel[1..] ==> sel[0] !in rest;
      assert id !in sel ==> sel == [sel[0]] + sel[1..];
      [sel[0]] + rest
  }

  /** The filter works id by id, so it keeps the order of the remaining
      ids: filtering a concatenation filters each part in turn. */
  lemma {:induction false} QuitarConcat(a: seq<int>, b: seq<int>, id: int)
    ensures Quitar(a + b, id) == Quitar(a, id) + Quitar(b, id)
  {
    if |a| == 0 {
      assert a + b == b;
    } else {
      assert (a + b)[1..] == a[1..] + b;
      QuitarConcat(a[1..], b, id);
    }
  }

  /** Removing `id` from a selection that ends with it is removing it from
      the rest. */
  lemma {:induction false} QuitarFinal(sel: seq<int>, id: int)
    ensures Quitar(sel + [id], id) == Quitar(sel, id)
  {
    if |sel| == 0 {
      assert Quitar([id], id) == Quitar([id][1..], id);
    } else {
      assert (sel + [id])[1..] == sel[1..] + [id];
      QuitarFinal(sel[1..], id);
    }
  }

  /** Clicking a row's checkbox: the clicked id flips in or out of the
      selection; every other id keeps its state, and no id is picked twice. */
  function ToggleSeleccion(sel: seq<int>, id: int): (r: seq<int>)
    ensures id in r <==> id !in sel
    ensures forall x :: x != id ==> (x in r <==> x in sel)
    ensures Distinct(sel) ==> Distinct(r)
  {
    if id in sel then Quitar(sel, id) else sel + [id]
  }

  /** Clicking the same checkbox twice picks the same ids again; when the id
      had not been picked, the selection is exactly as before. */
  lemma ToggleDosVeces(sel: seq<int>, id: int)
    ensures forall x :: x in ToggleSeleccion(ToggleSeleccion(sel, id), id) <==> x in sel
    ensures id !in sel ==> ToggleSeleccion(ToggleSeleccion(sel, id), id) == sel
  {
    if id !in sel {
      QuitarFinal(sel, id);
    }
  }

  /** "Seleccionar Todos": every listed pair, in listed order. */
  function SeleccionarTodos(pg: Pagina): (pg': Pagina)
    ensures |pg'.seleccionados| == |pg.items|
    ensures forall i :: 0 <= i < |pg.items| ==> pg'.seleccionados[i] == pg.items[i].id
    ensures pg'.items == pg.items && pg'.total == pg.total
  {
    pg.(seleccionados := IdsDe(pg.items))
  }

  /** "Limpiar Selección": nothing picked; the listing is kept. */
  function LimpiarSeleccion(pg: Pagina): (pg': Pagina)
    ensures |pg'.seleccionados| == 0
    ensures pg'.items == pg.items && pg'.total == pg.total
  {
    pg.(seleccionados := [])
  }

  /** The header checkbox: ticked when as many ids are picked as pairs are
      listed, and there is one; clicking it clears a selection of that
      length and picks every pair otherwise. */
  function CasillaTodos(pg: Pagina): (r: (bool, Pagina))
    ensures r.0 <==> |pg.seleccionados| == |pg.items| && |pg.items| > 0
    ensures |pg.seleccionados| == |pg.items| ==> r.1 == LimpiarSeleccion(pg)
    ensures |pg.seleccionados| != |pg.items| ==> r.1 == SeleccionarTodos(pg)
  {
    (|pg.seleccionados| == |pg.items| && |pg.items| > 0,
     if |pg.seleccionados| == |pg.items| then LimpiarSeleccion(pg) else SeleccionarTodos(pg))
  }

  /** The header checkbox compares lengths only. When the selection holds
      distinct ids drawn from the listing, as clicks on the rows produce,
      equal lengths mean exactly that every listed pair is picked. */
  lemma CasillaTodosExacta(pg: Pagina)
    requires Distinct(pg.seleccionados) && Distinct(IdsDe(pg.items))
    requires forall x :: x in pg.seleccionados ==> x in IdsDe(pg.items)
    ensures |pg.seleccionados| == |pg.items| <==>
              forall i :: 0 <= i < |pg.items| ==> pg.items[i].id in pg.seleccionados
  {
    var ids := IdsDe(pg.items);
    var a := set x | x in pg.seleccionados;
    var b := set x | x in ids;
    DistinctCard(pg.seleccionados);
    DistinctCard(ids);
    assert a <= b;
    if |pg.seleccionados| == |pg.items| {
      assert |b - a| == |b| - |a|;
      assert b - a == {};
      forall i | 0 <= i < |pg.items|
        ensures pg.items[i].id in pg.seleccionados
      {
        assert ids[i] in b;
      }
    }
    if forall i :: 0 <= i < |pg.items| ==> pg.items[i].id in pg.seleccionados {
      assert b <= a by {
        forall x | x in b
          ensures x in a
        {
          var i :| 0 <= i < |ids| && ids[i] == x;
          assert pg.items[i].id in pg.seleccionados;
        }
      }
      assert a == b;
    }
  }

  /** A stale selection of the same length ticks the header box although a
      listed pair is not picked: a listing of pair 1 with pair 2 picked. */
  lemma CasillaTodosSoloLongitud(it: DineroItem)
    requires it.id == 1
    ensures var pg := Pagina([it], it.disponible, [2]);
            CasillaTodos(pg).0 && it.id !in pg.seleccionados
  {
  }

  /** The amount shown for the selection: the balances of the listed pairs
      whose id is picked. */
  function MontoSeleccionado(items: seq<DineroItem>, sel: seq<int>): int {
    if |items| == 0 then 0
    else (if items[0].id in sel then items[0].disponible else 0) + MontoSeleccionado(items[1..], sel)
  }

  /** Nothing picked adds up to nothing. */
  lemma {:induction false} MontoVacio(items: seq<DineroItem>, sel: seq<int>)
    requires forall i :: 0 <= i < |items| ==> items[i].id !in sel
    ensures MontoSeleccionado(items, sel) == 0
  {
    if |items| > 0 {
      MontoVacio(items[1..], sel);
    }
  }

  /** With every listed pair picked, the amount is the sum of the listing. */
  lemma {:induction false} MontoCompleto(items: seq<DineroItem>, sel: seq<int>)
    requires forall i :: 0 <= i < |items| ==> items[i].id in sel
    ensures MontoSeleccionado(items, sel) == SumaItems(items)
  {
    if |items| > 0 {
      MontoCompleto(items[1..], sel);
    }
  }

  /** Adding one id to the selection adds the balance of the listed pairs
      with that id. */
  lemma {:induction false} MontoAgregar(items: seq<DineroItem>, a: seq<int>, b: seq<int>, id: int)
    requires id !in a && id in b
    requires forall x :: x != id ==> (x in a <==> x in b)
    ensures MontoSeleccionado(items, b) == MontoSeleccionado(items, a) + MontoSeleccionado(items, [id])
  {
    if |items| > 0 {
      MontoAgregar(items[1..], a, b, id);
    }
  }

  /** When ids are not repeated in the listing, the listed pair `k` alone
      adds up to its balance. */
  lemma {:induction false} MontoUno(items: seq<DineroItem>, k: int)
    requires Distinct(IdsDe(items)) && 0 <= k < |items|
    ensures MontoSeleccionado(items, [items[k].id]) == items[k].disponible
  {
    var rest := items[1..];
    var ids := IdsDe(items);
    assert forall i :: 0 <= i < |rest| ==> IdsDe(rest)[i] == ids[i + 1];
    assert Distinct(IdsDe(rest));
    if k == 0 {
      MontoVacio(rest, [items[0].id]);
    } else {
      assert items[0].id != items[k].id by {
        assert ids[0] != ids[k];
      }
      assert rest[k - 1] == items[k];
      MontoUno(rest, k - 1);
    }
  }

  /** Clicking the checkbox of listed pair `k` moves the selected amount by
      exactly its balance, up when it is picked and down when it is dropped. */
  lemma ToggleMonto(items: seq<DineroItem>, sel: seq<int>, k: int)
    requires Distinct(IdsDe(items)) && 0 <= k < |items|
    ensures var id := items[k].id;
            MontoSeleccionado(items, ToggleSeleccion(sel, id))
            == MontoSeleccionado(items, sel) + (if id in sel then -items[k].disponible else items[k].disponible)
  {
    var id := items[k].id;
    MontoUno(items, k);
    if id in sel {
      MontoAgregar(items, ToggleSeleccion(sel, id), sel, id);
    } else {
      MontoAgregar(items, sel, ToggleSeleccion(sel, id), id);
    }
  }

  /** The withdraw button is disabled while nothing is picked or the total
      available is not positive. */
  predicate BotonDeshabilitado(pg: Pagina) {
    |pg.seleccionados| == 0 || pg.total <= 0
  }

  /** `realizarRetiro`: nothing happens with an empty selection or when the
      confirmation is declined; otherwise the picked ids are sent as
      `paresIds` and the selection is cleared. */
  function RealizarRetiro(pg: Pagina, confirmado: bool): (r: (Pagina, Option<seq<int>>))
    ensures r.1.Some? <==> |pg.seleccionados| > 0 && confirmado
    ensures r.1.None? ==> r.0 == pg
    ensures r.1.Some? ==> r.1.value == pg.seleccionados && r.0 == LimpiarSeleccion(pg)
  {
    if |pg.seleccionados| == 0 then (pg, None)
    else if confirmado then (LimpiarSeleccion(pg), Some(pg.seleccionados))
    else (pg, None)
  }

  /** Clicking the withdraw button: a disabled button does nothing, so a
      request goes out only with a non-empty selection and a positive
      total, after confirmation. */
  function PulsarRetirar(pg: Pagina, confirmado: bool): (r: (Pagina, Option<seq<int>>))
    ensures r.1.Some? <==> !BotonDeshabilitado(pg) && confirmado
    ensures r.1.Some? ==> pg.total > 0 && |r.1.value| > 0 && |r.0.seleccionados| == 0
    ensures r.1.None? ==> r.0 == pg
  {
    if BotonDeshabilitado(pg) then (pg, None) else RealizarRetiro(pg, confirmado)
  }
}

=== FILE: tables.dfy ===
/** A database table whose primary key is an autoincrement integer. */
module Tables {
  import opened Ids
  import opened Listing

  datatype Table<T> = Table(rows: map<int, T>, next: int) {

    /** Every stored id was handed out earlier: ids start at 1 and stay below
        the next id the counter will hand out. */
    ghost predicate Valid() {
      1 <= next && forall k :: k in rows ==> 1 <= k < next
    }

    /** The ids among `keys` that name a row, in primary-key order. */
    function Select(keys: set<int>): (xs: seq<int>)
      requires Valid()
      ensures StrictlyAscending(xs)
      ensures forall k :: k in xs <==> k in keys && k in rows
    {
      Between(set k | k in keys && k in rows, 1, next)
    }

    /** `create`: store `v` under the next id and return that id. */
    function Insert(v: T): (r: (Table<T>, int))
      requires Valid()
      ensures r.0.Valid()
      ensures r.1 == next && r.0.next == next + 1
      ensures r.1 !in rows
      ensures r.0.rows == rows[r.1 := v]
    {
      (Table(rows[next := v], next + 1), next)
    }

    /** One `create` per value, in order: the values get consecutive ids. */
    function InsertAll(vs: seq<T>): (r: Table<T>)
      requires Valid()
      ensures r.Valid()
      ensures r.next == next + |vs|
      ensures forall k :: k in r.rows <==> k in rows || next <= k < next + |vs|
      ensures forall k :: k in rows ==> r.rows[k] == rows[k]
      ensures forall i :: 0 <= i < |vs| ==> r.rows[next + i] == vs[i]
      decreases |vs|
    {
      if |vs| == 0 then this
      else Insert(vs[0]).0.InsertAll(vs[1..])
    }

    /** A row `InsertAll` adds holds the value at the matching position. */
    lemma InsertAllNew(vs: seq<T>, k: int)
      requires Valid()
      requires k in InsertAll(vs).rows && k !in rows
      ensures 0 <= k - next < |vs|
      ensures InsertAll(vs).rows[k] == vs[k - next]
    {
      var i := k - next;
      assert InsertAll(vs).rows[next + i] == vs[i];
    }

    /** The value at position `i` gets the id `next + i`. */
    lemma InsertAllAt(vs: seq<T>, i: int)
      requires Valid() && 0 <= i < |vs|
      ensures next + i in InsertAll(vs).rows
      ensures InsertAll(vs).rows[next + i] == vs[i]
    {
    }

    /** `update` of an existing row. */
    function Update(k: int, v: T): (r: Table<T>)
      requires Valid() && k in rows
      ensures r.Valid() && r.next == next
      ensures r.rows.Keys == rows.Keys
      ensures r.rows[k] == v
      ensures forall j :: j in rows && j != k ==> r.rows[j] == rows[j]
    {
      Table(rows[k := v], next)
    }

    /** `delete` of a row; ids are never handed out again. */
    function Remove(k: int): (r: Table<T>)
      requires Valid()
      ensures r.Valid() && r.next == next
      ensures r.rows.Keys == rows.Keys - {k}
      ensures forall j :: j in r.rows ==> r.rows[j] == rows[j]
    {
      Table(rows - {k}, next)
    }
  }
}

=== FILE: vista.dfy ===
/** The deposit view: `GET /api/depositos/vista`. Every deposit is listed
    with its pairs grouped brand → model → sizes and the number of pairs it
    holds. */
module Vista {
  import opened Ids
  import opened Inventario
  import opened Agrupacion

  datatype VistaDeposito = VistaDeposito(id: int, nombre: string, marcas: seq<GrupoMarca>, totalPares: int)

  /** A pair as the grouping sees it, through its intake batch and model. */
  function UnidadDe(s: Store, id: int): (u: Unidad)
    requires Valid(s) && id in s.pares.rows
    ensures u.talle == s.pares.rows[id].talle
    ensures u.modeloId == ModeloIdDe(s, s.pares.rows[id])
    ensures u.marcaId == MarcaIdDe(s, s.pares.rows[id])
  {
    var p := s.pares.rows[id];
    var modeloId := ModeloIdDe(s, p);
    var modelo := s.modelos.rows[modeloId];
    Unidad(modelo.marcaId, s.marcas.rows[modelo.marcaId].nombre, modeloId, modelo.nombre, p.talle)
  }

  /** The pairs stored in deposit `depositoId`, in primary-key order. */
  function ParesDe(s: Store, depositoId: int): (ids: seq<int>)
    requires Valid(s)
    ensures StrictlyAscending(ids)
    ensures forall id :: id in ids <==> id in s.pares.rows && s.pares.rows[id].depositoId == depositoId
  {
    s.pares.Select(set id | id in s.pares.rows && s.pares.rows[id].depositoId == depositoId)
  }

  function Unidades(s: Store, depositoId: int): (us: seq<Unidad>)
    requires Valid(s)
    ensures |us| == |ParesDe(s, depositoId)|
    ensures forall k :: 0 <= k < |us| ==> us[k] == UnidadDe(s, ParesDe(s, depositoId)[k])
  {
    var ids := ParesDe(s, depositoId);
    seq(|ids|, k requires 0 <= k < |ids| => UnidadDe(s, ids[k]))
  }

  /** The entry of one deposit: its brand groups and as many pairs as the
      deposit holds. */
  function VistaDe(s: Store, depositoId: int): (v: VistaDeposito)
    requires Valid(s) && depositoId in s.depositos.rows
    ensures v.id == depositoId && v.nombre == s.depositos.rows[depositoId].nombre
    ensures v.marcas == Marcas(Unidades(s, depositoId))
    ensures v.totalPares == |set id | id in s.pares.rows && s.pares.rows[id].depositoId == depositoId|
  {
    var ids := ParesDe(s, depositoId);
    AscendingIsDistinct(ids);
    DistinctCard(ids);
    assert (set x | x in ids) == (set id | id in s.pares.rows && s.pares.rows[id].depositoId == depositoId);
    VistaDeposito(depositoId, s.depositos.rows[depositoId].nombre, Marcas(Unidades(s, depositoId)), |ids|)
  }

  function DepositoIds(vs: seq<VistaDeposito>): (ids: seq<int>)
    ensures |ids| == |vs|
    ensures forall i :: 0 <= i < |vs| ==> ids[i] == vs[i].id
  {
    seq(|vs|, i requires 0 <= i < |vs| => vs[i].id)
  }

  /** The handler: one entry per deposit, in primary-key order. */
  function ListarVista(s: Store): (vs: seq<VistaDeposito>)
    requires Valid(s)
    ensures StrictlyAscending(DepositoIds(vs))
    ensures forall id :: id in DepositoIds(vs) <==> id in s.depositos.rows
    ensures forall i :: 0 <= i < |vs| ==> vs[i].id in s.depositos.rows && vs[i] == VistaDe(s, vs[i].id)
  {
    var ids := s.depositos.Select(s.depositos.rows.Keys);
    var vs := seq(|ids|, i requires 0 <= i < |ids| => VistaDe(s, ids[i]));
    assert DepositoIds(vs) == ids;
    vs
  }

  /** Every pair of a deposit shows up in that deposit's entry: its size
      under its own model, under its own brand. */
  lemma ParVisible(s: Store, id: int)
    requires Valid(s) && id in s.pares.rows
    ensures var p := s.pares.rows[id];
            var v := VistaDe(s, p.depositoId);
            && MarcaIdDe(s, p) in MarcaIds(v.marcas)
            && ModeloIdDe(s, p) in ModeloIds(ModelosDe(v.marcas, MarcaIdDe(s, p)))
            && p.talle in TallesEn(ModelosDe(v.marcas, MarcaIdDe(s, p)), ModeloIdDe(s, p))
  {
    var p := s.pares.rows[id];
    var ids := ParesDe(s, p.depositoId);
    var k :| 0 <= k < |ids| && ids[k] == id;
    UnidadPresente(Unidades(s, p.depositoId), k);
  }
}

=== FILE: wrappers.dfy ===
/** Optional values and results with an error, as the handlers use them. */
module Wrappers {

  /** A nullable column or request field. */
  datatype Option<+T> = None | Some(value: T) {

    /** The value, or `default` when there is none. */
    function GetOr(default: T): T {
      match this
      case Some(v) => v
      case None => default
    }
  }

  /** The JSON body a handler answers with: the payload, or the error it reports. */
  datatype Result<+T, +E> = Ok(value: T) | Err(error: E)
}
